=== FILE: README.md ===
# feedAPP client core in Dafny

This project models the client side of feedAPP, a small social feed written
in React. It covers the logic inside the client's event handlers and
effects:

- the axios instance, whose interceptors attach the bearer token and, after
  a first 401, refresh the access token once and re-send the request once;
- the session provider (`user`, `loading`) and the route guard;
- the post card's optimistic like button;
- the follow list's optimistic toggle;
- the home feed's normalisation, prepend, follow update and tab filter;
- the profile page's own-posts filter and avatar propagation;
- the comment threads of the two post pages;
- the three post composers, the login and signup forms, and the local chat.

The model has one Dafny module per source file. Shared modules define the
JavaScript value rules the code relies on (`Js`), request outcomes (`Http`)
and the server's records (`Domain`).

Each piece of state is a class. The browser's `localStorage` and
`window.location` together form `Api.Browser`. An async handler is split at
each `await`:

- a `...Start` method runs the guard and the updates made before the
  request, and returns the request (None when the handler returns early);
- a `...Resolve` method receives the server's answer as an `Outcome`
  (`Ok(body)` or `Err(error)`).

Values a handler's closure captured are passed from the first step to the
second: the card's pre-click `liked`, the detail page's comment list, and
the profile's loaded user.

The behaviour of a whole request
through the interceptors is stated by `Api.Dispatch`:

- the caller receives the first answer, except after a first 401 whose
  refresh succeeded, when it receives the re-send's answer;
- at most two sends and one refresh go out;
- the store changes only on the refresh path.

`Api.Exchange` carries the step-by-step version. Its invariant fixes the
shape of the traffic, and a measure that decreases at every step shows that
each call settles.

## Model

| member | source | states |
|---|---|---|
| Api.WithBearer | src/utils/api.js:12-18 | A truthy stored access token sets `Authorization: Bearer <token>` (section 2.1 of RFC 6750) and keeps every other header. Without one, the headers are untouched. |
| Api.RequestConfig.AttachBearer | src/utils/api.js:12-18 | The request interceptor leaves the config's headers equal to `WithBearer` of the old headers and the stored token. The `_retry` mark is kept. |
| Api.Exchange.constructor | src/utils/api.js:12-18 | A call goes out once, unmarked, with the header the request interceptor produced. |
| Api.Exchange.OnResponse | src/utils/api.js:21-31 | A success, a non-401 error, or a 401 on a marked call settles with that same outcome and changes nothing else. A first 401 sets the mark and then sends the stored refresh token (even an absent one) to the refresh endpoint. The traffic invariant holds and the measure decreases. |
| Api.Exchange.OnRefresh | src/utils/api.js:29-48 | On a successful refresh, the access token is replaced and the refresh token kept, and the call is re-sent once with `Bearer <new>`. On a failed refresh, both tokens are removed, the location becomes `/login`, and the call settles with the original 401. |
| Api.Dispatch | src/utils/api.js:12-49 | A whole call returns `second` exactly after a first 401 with a successful refresh, and `first` otherwise. The wire holds one to three requests, with a refresh only in second place. The store changes only on the refresh path. |
| Api.GetUserProfile | src/utils/api.js:57-65 | Sends `GET /users/<id>`. It returns the instance's outcome unchanged, a rejection included. The store and location are as the instance leaves them: untouched without a 401, the new access token stored and the call re-sent after a refresh, both tokens removed and `/login` assigned when the refresh fails. |
| Http.ServerErrorOr | src/context/AuthContext.jsx:52 | Takes the server's `error` field when it is non-empty, else the fallback. The result is never empty when the fallback is not. |
| Domain.ImageOf | src/pages/Home.jsx:29 | The media URL becomes the image exactly when the media type is "image". |
| Domain.VideoOf | src/pages/Home.jsx:30 | The media URL becomes the video exactly when the media type is "video". |
| AuthContext.AuthProvider.constructor | src/context/AuthContext.jsx:7-8 | The provider starts with no user, loading. |
| AuthContext.AuthProvider.Logout | src/context/AuthContext.jsx:11-15 | Removes both tokens and clears the user. It sends no request and keeps the loading flag. |
| AuthContext.AuthProvider.FetchUserStart | src/context/AuthContext.jsx:18-23 | Without a truthy access token there is no request and loading ends. With one, the request carries that token and nothing changes yet. |
| AuthContext.AuthProvider.FetchUserResolve | src/context/AuthContext.jsx:25-35 | A success sets the response's user. A failure is a logout. Loading is false afterwards either way. |
| AuthContext.AuthProvider.Login | src/context/AuthContext.jsx:43-54 | A success stores both tokens, sets the user and returns `{success: true}`. A failure returns the server's error, else the exception message, and leaves the store and the user unchanged. |
| AuthContext.AuthProvider.Signup | src/context/AuthContext.jsx:57-68 | The same transition as login, for `/auth/signup`. |
| ProtectedRoute.Guard | src/components/ProtectedRoute.jsx:5-15 | Renders the children exactly when there is a user. Otherwise it redirects to `/login`, replacing the history entry. |
| ProtectedRoute.GuardIgnoresLoading | src/components/ProtectedRoute.jsx:6-14 | Two sessions with the same user get the same element, whatever their loading flags. |
| ProtectedRoute.GuardRedirectsWhileLoading | src/components/ProtectedRoute.jsx:6-11 | While the initial fetch is pending (loading, no user) the guard redirects. |
| PostCard.Flip | src/components/PostCard.jsx:42-43 | Applies both like updaters once: `liked` flips, and `likes` moves by one in the direction given by the captured `liked`. |
| PostCard.OptimisticStepFollowsLiked | src/components/PostCard.jsx:42-43 | The optimistic step adds one when it likes and removes one when it unlikes. |
| PostCard.FailedLikeDrifts | src/components/PostCard.jsx:42-52 | After a failed request, `liked` is back to its pre-click value but the count is two away from the pre-click count. |
| PostCard.DoubleClickRestores | src/components/PostCard.jsx:42-43 | Two optimistic clicks in a row return to the starting state. |
| PostCard.Undo | src/components/PostCard.jsx:51-52 | The corrected revert flips `liked` back and moves the count against the captured direction. |
| PostCard.UndoRestoresSnapshot | src/components/PostCard.jsx:42-52 | With the corrected revert, a failed like restores the pre-click state exactly. |
| PostCard.AuthorTarget | src/components/PostCard.jsx:71-75 | Goes to `/profile/me` exactly when `author_id === user?.id` (so also when both are absent), and to `/profile/<author_id>` otherwise. |
| PostCard.Card.constructor | src/components/PostCard.jsx:15-30 | Local likes and liked come from the props, defaulting to 0 and false. The menu and the dialog start closed. |
| PostCard.Card.ReceiveProps | src/components/PostCard.jsx:34-37 | Local state is reset to the defaulted props exactly when one of them changed. Otherwise it is kept. |
| PostCard.Card.LikeStart | src/components/PostCard.jsx:39-46 | Without a user nothing changes and no request goes out. With one, the optimistic step is applied and the pre-click `liked` is captured. |
| PostCard.Card.LikeResolve | src/components/PostCard.jsx:46-53 | A success takes the server's `liked` and `like_count`. A failure applies the same updaters again with the captured value. |
| PostCard.Card.DeleteConfirm | src/components/PostCard.jsx:59-63 | Hands the id to `onDelete` exactly when one is given. It always closes the menu and the dialog and leaves the likes alone. |
| Follow.Endpoint | src/pages/Follow.jsx:17-19 | The followers prefix is used exactly for type "followers", the following prefix otherwise, followed by the user id. |
| Follow.FlipAt | src/pages/Follow.jsx:37-41 | Only the clicked row's mark is negated. The length and every other row are unchanged. |
| Follow.SetFollowedAt | src/pages/Follow.jsx:44-48 | Only the clicked row's mark takes the server's value. Every other row is unchanged. |
| Follow.FlipTwiceRestores | src/pages/Follow.jsx:37-56 | The revert after a failed toggle restores the list when nothing intervened. |
| Follow.ButtonFor | src/pages/Follow.jsx:88-98 | The current user's own row has no button. Other rows read "Following" or "Follow" after their mark. |
| Follow.FollowList.constructor | src/pages/Follow.jsx:11-12 | The list starts empty, loading. |
| Follow.FollowList.FetchStart | src/pages/Follow.jsx:14-21 | Loading becomes true and the endpoint for the route's type and user is requested. |
| Follow.FollowList.FetchResolve | src/pages/Follow.jsx:21-27 | A success replaces the list and a failure keeps it. Loading ends either way. |
| Follow.FollowList.ToggleStart | src/pages/Follow.jsx:34-43 | The clicked row's mark is negated before the request. |
| Follow.FollowList.ToggleResolve | src/pages/Follow.jsx:43-57 | A success sets the row to the server's `isFollowing`. A failure negates it again. |
| Home.Normalize | src/pages/Home.jsx:27-33 | Keeps the post, splits the media by type (never both) and reads the comment count as the server's value or 0. The followed flag is true exactly when the server says true. |
| Home.NormalizeAll | src/pages/Home.jsx:27-33 | Normalises every post, keeping length and order. |
| Home.Authored | src/pages/Home.jsx:47-58 | A new post keeps every field of the created post (its id, author id, content and media included) except four: the user as author, the user's avatar (empty becomes absent), no likes, not liked. It has no comments, its author is not followed, and media are split by type. |
| Home.SetFollowed | src/pages/Home.jsx:70-76 | Every post of the author takes the server's flag. Every other post is unchanged, and the order is kept. |
| Home.Visible | src/pages/Home.jsx:91-92 | The "following" tab lists exactly the followed authors' posts. Any other tab lists all posts. |
| Home.VisibleSingle | src/pages/Home.jsx:91-92 | On the "following" tab a single post is listed exactly when its author is followed. |
| Home.VisibleConcat | src/pages/Home.jsx:91-92 | The "following" tab of a split feed is the tabs of the parts joined, so with `VisibleSingle` it lists the followed posts in feed order, each as often as it occurs. |
| Home.NewPostPlacement | src/pages/Home.jsx:47-92 | A new post heads the "For You" tab and leaves the "Following" tab exactly as it was. |
| Home.FollowToggleVisibility | src/pages/Home.jsx:70-92 | After a toggle, a post of that author is on the "Following" tab exactly when the server said following. |
| Home.Feed.constructor | src/pages/Home.jsx:12-15 | The feed starts with no posts, loading, on "For You", with the overlay closed. |
| Home.Feed.FetchStart | src/pages/Home.jsx:18-23 | A request goes out exactly when there is a user. |
| Home.Feed.FetchResolve | src/pages/Home.jsx:23-40 | A success stores the normalised posts and a failure keeps the old ones. Loading ends either way. |
| Home.Feed.NewPost | src/pages/Home.jsx:47-61 | Puts the authored post in front of the existing ones and closes the overlay. |
| Home.Feed.FollowToggleResolve | src/pages/Home.jsx:64-80 | A success applies the server's flag to the author's posts. A failure changes nothing, and there is no optimistic step. |
| Home.Feed.SelectTab | src/pages/Home.jsx:98-117 | Switches the tab and changes nothing else. |
| Home.Feed.SetOverlay | src/pages/Home.jsx:145-168 | Opens or closes the overlay and changes nothing else. |
| Home.Feed.Render | src/pages/Home.jsx:82-92 | Shows the loading text exactly while the session or the feed loads. Otherwise it shows the active tab's posts. |
| Profile.FormFor | src/pages/Profile.jsx:44-49 | Each form field is the user's value, with "" for an absent or empty one. |
| Profile.WithAvatar | src/pages/Profile.jsx:89-91 | Every post gets the avatar and nothing else about it changes. |
| Profile.OwnPosts | src/pages/Profile.jsx:57-62 | Every kept post is one of the user's posts of the fetched list, shown with the user's avatar, and every such post is kept. |
| Profile.OwnPostsSingle | src/pages/Profile.jsx:57-62 | A one-post list keeps that post, with the user's avatar, exactly when the user wrote it. |
| Profile.OwnPostsConcat | src/pages/Profile.jsx:57-62 | The result for a joined list is the joined results. With the one-post case this fixes order and multiplicity: the user's posts, in fetched order, each as often as it occurs. |
| Profile.OwnPostsOfAuthorOnly | src/pages/Profile.jsx:57-62 | A list written entirely by the user is kept whole and in order, with the user's avatar on every post. |
| Profile.UpdateMatchesReload | src/pages/Profile.jsx:57-91 | After updating the same user, the listed posts equal what loading the updated user would list. |
| Profile.ProfileView.constructor | src/pages/Profile.jsx:7-23 | The page starts with the placeholder user, no posts, not editing, an empty form and message, loading. |
| Profile.ProfileView.FetchStart | src/pages/Profile.jsx:26-34 | Loading becomes true before `GET /users/me`. |
| Profile.ProfileView.FetchUserResolve | src/pages/Profile.jsx:35-54 | A body with a user shows that user, prefills the form and goes on to fetch posts. A body without a user, or a failure, sets "Failed to load profile." and ends loading. |
| Profile.ProfileView.FetchPostsResolve | src/pages/Profile.jsx:52-70 | A success lists the own posts of the captured user and a failure sets the load error. Loading ends either way. |
| Profile.ProfileView.UpdateResolve | src/pages/Profile.jsx:74-101 | A body with a user replaces the shown user, reports success, leaves edit mode and puts the new avatar on every post. Otherwise it reports "Update failed. Try again." and changes nothing else. |
| Profile.ProfileView.ClearMessage | src/pages/Profile.jsx:93 | The delayed clear empties the message. |
| Profile.ProfileView.EditForm | src/pages/Profile.jsx:138-168 | Typing changes the form only. |
| Profile.ProfileView.SetEditing | src/pages/Profile.jsx:182-195 | The edit and cancel buttons change the edit mode only. |
| PostPage.CardFor | src/pages/PostPage.jsx:66-77 | The card splits the media by type, and its comment count is the length of the page's list. |
| PostPage.CommentAuthorization | src/pages/PostPage.jsx:33-37 | A comment request carries the stored bearer token when one is stored, else `Bearer undefined`. |
| PostPage.PostThread.constructor | src/pages/PostPage.jsx:12-14 | The page starts with no post, no comments and an empty draft. |
| PostPage.PostThread.FetchResolve | src/pages/PostPage.jsx:17-28 | A success takes the post and its comments, or none. A failure changes nothing. |
| PostPage.PostThread.Type | src/pages/PostPage.jsx:117-118 | Typing changes the draft only. |
| PostPage.PostThread.AddCommentStart | src/pages/PostPage.jsx:30-37 | A request goes out exactly when there is a user and the draft is not blank. It carries the untrimmed draft. |
| PostPage.PostThread.AddCommentResolve | src/pages/PostPage.jsx:38-43 | A success appends the comment to the latest list and clears the draft. A failure changes nothing. |
| PostPage.PostThread.Render | src/pages/PostPage.jsx:46-77 | Shows the loading text exactly until a post is held. The card's count equals the number of comments listed. |
| PostDetail.MediaOf | src/pages/PostDetail.jsx:53-59 | Shows no media without a media URL. Otherwise it shows a video exactly for type "video" and an image for any other type. |
| PostDetail.UntypedMediaShownOnlyHere | src/pages/PostDetail.jsx:53-59 | Untyped media with a URL shows as an image here but not on a card. |
| PostDetail.DetailThread.constructor | src/pages/PostDetail.jsx:8-10 | The page starts with no post, no comments and an empty draft. |
| PostDetail.DetailThread.FetchResolve | src/pages/PostDetail.jsx:12-23 | A success takes `data.post` (possibly absent) and the comments, or none. A failure changes nothing. |
| PostDetail.DetailThread.Type | src/pages/PostDetail.jsx:96 | Typing changes the draft only. |
| PostDetail.DetailThread.AddCommentStart | src/pages/PostDetail.jsx:25-30 | A request goes out exactly when the draft is not blank; there is no user check. It captures the current list. |
| PostDetail.DetailThread.AddCommentResolve | src/pages/PostDetail.jsx:30-35 | A success sets the list to the captured list plus the comment and clears the draft. A failure changes nothing. |
| Composer.FieldName | src/components/CreatePost.jsx:43-46 | Uploads the file under "video" exactly for a `video/` type, "image" otherwise. |
| Composer.PreviewKind | src/components/CreatePost.jsx:101-107 | Previews an image exactly for an `image/` type, a video player otherwise. |
| Composer.PreviewAndFieldDisagreeOnOtherTypes | src/components/CreatePost.jsx:44-103 | A file of any other type is previewed as a video but uploaded as an image. |
| Composer.PostComposer.constructor | src/components/CreatePost.jsx:6-9 | The composer starts empty, with no file or preview, not submitting. |
| Composer.PostComposer.Type | src/components/CreatePost.jsx:82 | Typing changes the text only. |
| Composer.PostComposer.FileChange | src/components/CreatePost.jsx:14-24 | A selection sets the file with a fresh preview URL. An empty selection clears both. |
| Composer.PostComposer.RemoveFile | src/components/CreatePost.jsx:27-30 | Clears the file and the preview. |
| Composer.PostComposer.CanSubmit | src/components/CreatePost.jsx:120 | The button is enabled exactly when not submitting and there is text or a file. |
| Composer.PostComposer.SubmitStart | src/components/CreatePost.jsx:32-52 | No request goes out for blank text with no file, or without a user. Otherwise it uploads the untrimmed text and the file under its field, and starts submitting. |
| Composer.PostComposer.SubmitResolve | src/components/CreatePost.jsx:48-61 | A success hands on the created post and clears text, file and preview. A failure keeps them. Submitting ends either way. |
| SimpleComposer.TextOnlyComposer.constructor | src/pages/CreatePost.jsx:6-7 | The composer starts empty, not submitting. |
| SimpleComposer.TextOnlyComposer.Type | src/pages/CreatePost.jsx:36 | Typing changes the text only. |
| SimpleComposer.TextOnlyComposer.ButtonEnabled | src/pages/CreatePost.jsx:42 | The button is enabled exactly when not submitting and there is a user. |
| SimpleComposer.TextOnlyComposer.SubmitStart | src/pages/CreatePost.jsx:10-20 | No request goes out for blank text or without a user. Otherwise it sends the untrimmed text and starts submitting. |
| SimpleComposer.TextOnlyComposer.SubmitResolve | src/pages/CreatePost.jsx:16-27 | A success hands on the created post and clears the text. A failure keeps the text. Submitting ends either way. |
| PostForm.Edited | src/components/PostForm.jsx:7-35 | A user edit under `maxlength` replaces the selection by as much of the inserted text as fits: the text around the selection is kept, an insertion that fits is kept whole, one that does not is cut to exactly the room left (the result is then 280 characters long), a keystroke into full text changes nothing, and a text within 280 characters stays within 280. |
| PostForm.CounterFor | src/components/PostForm.jsx:40-45 | Shows the number of characters over 280, highlighted exactly above 260 characters. |
| PostForm.TextComposer.constructor | src/components/PostForm.jsx:6 | The form starts with empty text. |
| PostForm.TextComposer.Edit | src/components/PostForm.jsx:34-35 | The text becomes the edited text, so it never exceeds 280 characters. |
| PostForm.TextComposer.PostEnabled | src/components/PostForm.jsx:49 | The button is enabled exactly for non-blank text. |
| PostForm.TextComposer.PostStart | src/components/PostForm.jsx:9-17 | No request goes out for blank text. Otherwise it sends the untrimmed text. |
| PostForm.TextComposer.PostResolve | src/components/PostForm.jsx:13-23 | A success clears the text and hands on the created post when a callback is given. A failure keeps the text. |
| LoginPage.LoginForm.constructor | src/pages/Login.jsx:11-12 | Both messages start empty. |
| LoginPage.LoginForm.SubmitStart | src/pages/Login.jsx:14-17 | Both messages are cleared before the request. |
| LoginPage.LoginForm.SubmitResolve | src/pages/Login.jsx:19-30 | A success stores both tokens (and only those keys), shows the success message and schedules `/profile/<user id>`. A failure shows the server's error, else "Login failed. Try again.", stores nothing and schedules nothing. |
| SignupPage.SignupForm.constructor | src/pages/Signup.jsx:12-13 | Both messages start empty. |
| SignupPage.SignupForm.SubmitStart | src/pages/Signup.jsx:15-18 | Both messages are cleared before the request. |
| SignupPage.SignupForm.SubmitResolve | src/pages/Signup.jsx:20-31 | A success stores both tokens, shows the success message and schedules `/`. A failure shows the server's error, else "Signup failed. Try again.", and stores nothing. |
| Chat.ChatWindow.constructor | src/components/ChatWindow.jsx:7-11 | The chat starts with exactly the two seeded messages, from Alice and Me, and an empty input. |
| Chat.ChatWindow.Type | src/components/ChatWindow.jsx:33 | Typing changes the input only. |
| Chat.ChatWindow.Send | src/components/ChatWindow.jsx:13-17 | A blank input changes nothing. Otherwise the untrimmed input is appended as a message from "Me" with the clock as id, and the input is cleared. The seed stays first and no message is blank. |
| Scenarios.ExpiredTokenIsRefreshed | src/utils/api.js:21-49 | With an expired access token, `/users/me` is sent, refreshed and re-sent with the new token. The user is signed in and the refresh token is kept. |
| Scenarios.RejectedRefreshSignsOut | src/utils/api.js:39-48 | A rejected refresh leaves an empty store, the location `/login`, no re-send and no user. |
| Scenarios.LikeSucceeds | src/components/PostCard.jsx:39-56 | Liking an unliked post with 3 likes shows 4 at once, then the server's numbers. |
| Scenarios.LikeFailsAsWritten | src/components/PostCard.jsx:39-56 | A failed like on an unliked post with 3 likes ends unliked with 5. |
| Scenarios.LoginPageThenGuard | src/pages/Login.jsx:19-27 | After signing in through the login page on a fresh load, the guarded profile it moves to redirects to `/login`. |
| Scenarios.ProviderLoginThenGuard | src/context/AuthContext.jsx:43-54 | After signing in through the provider's `login`, the guarded profile renders. |
| Scenarios.RefusedLoginReloads | src/pages/Login.jsx:19-30 | A login refused with 401 on a fresh load sends a refresh with no token. Its rejection clears the store and assigns `/login`, so the error the page then sets is lost to the page load. |
| Scenarios.OverlappingComments | src/pages/PostDetail.jsx:25-36 | With two overlapping submissions, the detail page keeps only the second comment; the post page keeps both, in order. |

## Left out

- Concurrency is not modelled. Each call's path through the interceptors is modelled on its own, so two requests that get a 401 together are not interleaved. Each such request would refresh on its own, because the code shares no in-flight refresh. The same holds for racing toggles.
- Axios and the network are not modelled: the server's answers are inputs. `Api.Dispatch` takes the answers to the send, the refresh and the re-send.
- The refresh body is assumed to carry `accessToken`. A body without it would store the text "undefined".
- The base URL from the build environment is not modelled. URLs are paths.
- `setTimeout` is not modelled: the heart animation reset, the profile message clear and the 1.5 s redirects of login and signup. The redirects are returned as the scheduled target. The message clear is its own step (`ClearMessage`).
- Host calls are parameters. `Date.now` is the chat's `now` argument, and `URL.createObjectURL` is the `objectUrl` argument. `URL.revokeObjectURL` and `FormData` are not modelled; the upload is a value.
- `console.error` logging is not modelled.
- Rendering is not modelled: JSX, Tailwind classes, framer-motion, the heart animation flag, and the image and video error fallbacks. Only the decisions a view makes (loading text, button captions, enabled states, media choice) are kept.
- Several files are not part of this model because they hold only routing, links or static views: `src/App.jsx`, `src/components/Navbar.jsx`, `src/components/Sidebar.jsx`, `src/components/ButtomNav.jsx`, `src/pages/ServerError.jsx`, `src/components/MessageBubble.jsx`, `src/components/Loader.jsx`, `src/pages/Following.jsx` and `src/components/EditProfileForm.jsx`.
- Follow.FollowList.ToggleStart: the source writes the row object in place, so the old array shares the written object. The model replaces the row with a new value, so this aliasing (visible only when React replays an updater) is not captured.
- Follow.FollowList.ToggleResolve: requires the clicked index to be within the list, as the source does; an index left stale by a re-fetch would make the source throw.
- PostCard.Card.constructor: an absent `like_count` or `liked_by_me` takes the default (0, false), as a JavaScript default parameter does. An explicit `null`, which the default parameter keeps, is not modelled separately: `None` stands for the absent prop.
- Follow.FollowEntry: an absent `followed_by_me` is modelled as false. The source treats it the same way, for display and for `!`.
- PostForm.CounterFor: the count and the 260 threshold are in characters (code points), while the source's `text.length` counts UTF-16 code units, so a character outside the Basic Multilingual Plane counts 1 here and 2 there.
- PostForm.Edited: counts characters (code points), while the text area counts UTF-16 code units. The two differ for characters outside the Basic Multilingual Plane. Input-method composition, which browsers may let run past the limit until it ends, is not modelled.
- Home.Feed.FetchStart: the explicit `Bearer <token>` header of the feed and composer requests is not modelled. The request interceptor overwrites it whenever a token is stored.
- Profile.ProfileView: the placeholder user shown before loading (empty strings, null id) is modelled as `None`.
- The route guard has two outcomes, children or redirect, as the code has. A separate loading outcome is not added. Likewise no shared in-flight refresh is added to the interceptor.

## Findings

| source | as written | input that shows it | evidently intended | confidence | as-written member | corrected member |
|---|---|---|---|---|---|---|
| src/components/PostCard.jsx:51-52 | On failure the revert applies the optimistic updaters again with the captured pre-click `liked`, so the count moves a second time in the same direction. | An unliked post with 3 likes whose like request fails ends unliked with 5 likes. | The revert restores the pre-click count (3). | not executed; high | PostCard.FailedLikeDrifts | PostCard.UndoRestoresSnapshot |
| src/pages/Login.jsx:19-27 | The login page stores the tokens and navigates, but never sets the session provider's user, which is only fetched when the app mounts. | A fresh load with an empty store, then a successful login: the move to `/profile/7` meets the guard with no user and is redirected to `/login`. | Signing in makes the session hold the user, as the provider's own `login` does. | not executed; high | Scenarios.LoginPageThenGuard | Scenarios.ProviderLoginThenGuard |

=== FILE: api.dfy ===
/** The shared axios instance of the client: the credential store (browser
    storage and location), the request interceptor that attaches the access
    token, and the response interceptor that, on a first 401, refreshes the
    access token once and re-sends the request once. */
module Api {
  import opened Js
  import opened Http
  import opened Domain

  const AccessTokenKey := "accessToken"
  const RefreshTokenKey := "refreshToken"
  const AuthorizationHeader := "Authorization"

  /** `Bearer <token>`, the credential syntax of section 2.1 of RFC 6750. */
  function Bearer(token: string): (h: string)
    ensures |h| == |token| + 7 && h[..7] == "Bearer " && h[7..] == token
  {
    "Bearer " + token
  }

  /** `localStorage.getItem(key)` (also header lookup): None plays `null`. */
  function Lookup(m: map<string, string>, key: string): (r: Option<string>)
    ensures r.Some? <==> key in m
    ensures r.Some? ==> r.value == m[key]
  {
    if key in m then Some(m[key]) else None
  }

  /** The request interceptor on a header map: a truthy stored access token
      sets `Authorization: Bearer <token>` and nothing else; without one the
      headers are untouched. */
  function WithBearer(headers: map<string, string>, access: Option<string>): (h: map<string, string>)
    ensures Truthy(access) ==> Lookup(h, AuthorizationHeader) == Some(Bearer(access.value))
    ensures !Truthy(access) ==> h == headers
    ensures forall k | k in headers && k != AuthorizationHeader :: k in h && h[k] == headers[k]
    ensures h.Keys == headers.Keys + (if Truthy(access) then {AuthorizationHeader} else {})
  {
    if Truthy(access) then headers[AuthorizationHeader := Bearer(access.value)] else headers
  }

  /** The browser globals the client writes: `localStorage` and
      `window.location` (None until this code assigns it). */
  class Browser {
    var storage: map<string, string>
    var location: Option<Route>

    constructor (storage: map<string, string>)
      ensures this.storage == storage && location == None
    {
      this.storage := storage;
      location := None;
    }

    function GetItem(key: string): Option<string>
      reads this
    {
      Lookup(storage, key)
    }

    method SetItem(key: string, value: string)
      modifies this
      ensures storage == old(storage)[key := value] && location == old(location)
    {
      storage := storage[key := value];
    }

    method RemoveItem(key: string)
      modifies this
      ensures storage == old(storage) - {key} && location == old(location)
    {
      storage := storage - {key};
    }

    /** The two `setItem` calls every successful login or signup makes. */
    method StoreTokens(access: string, refresh: string)
      modifies this
      ensures storage == old(storage)[AccessTokenKey := access][RefreshTokenKey := refresh]
      ensures location == old(location)
    {
      SetItem(AccessTokenKey, access);
      SetItem(RefreshTokenKey, refresh);
    }

    /** The two `removeItem` calls of a logout or a failed refresh. */
    method ClearTokens()
      modifies this
      ensures storage == old(storage) - {AccessTokenKey, RefreshTokenKey}
      ensures location == old(location)
    {
      RemoveItem(AccessTokenKey);
      RemoveItem(RefreshTokenKey);
      assert storage == old(storage) - {AccessTokenKey, RefreshTokenKey};
    }

    /** `window.location.href = ...`. */
    method Assign(route: Route)
      modifies this
      ensures location == Some(route) && storage == old(storage)
    {
      location := Some(route);
    }
  }

  /** The axios request config of one call: the interceptors mutate its
      headers and its `_retry` mark. */
  class RequestConfig {
    const url: string
    var headers: map<string, string>
    var retry: bool

    constructor (url: string, headers: map<string, string>)
      ensures this.url == url && this.headers == headers && !retry
    {
      this.url := url;
      this.headers := headers;
      retry := false;
    }

    function Authorization(): Option<string>
      reads this
    {
      Lookup(headers, AuthorizationHeader)
    }

    /** The request interceptor: reads the stored access token and, when it
        is truthy, sets the bearer header. */
    method AttachBearer(browser: Browser)
      modifies this
      ensures headers == WithBearer(old(headers), browser.GetItem(AccessTokenKey))
      ensures retry == old(retry)
    {
      var access := browser.GetItem(AccessTokenKey);
      if Truthy(access) {
        headers := headers[AuthorizationHeader := Bearer(access.value)];
      }
    }
  }

  /** A request put on the network: a call through the instance, with the
      Authorization header it carried, or the refresh call, with the
      refresh token it sent (absent when none was stored). */
  datatype Wire = ApiCall(url: string, authorization: Option<string>) | RefreshCall(refreshToken: Option<string>)

  /** Where one call stands: waiting for the server's answer to a send,
      waiting for the refresh call (holding the original 401 error), or
      settled with what the caller's promise receives. */
  datatype Phase<T> = AwaitingResponse | AwaitingRefresh(original: HttpError) | Settled(result: Outcome<T>)

  /** One call's trip through the interceptors. The refresh goes through
      bare axios, not the instance, so it never re-enters the response
      interceptor; the re-send goes through both interceptors again. */
  class Exchange<T> {
    const browser: Browser
    const config: RequestConfig
    var phase: Phase<T>
    var wire: seq<Wire>

    /** The network requests of one call are a prefix of
        [send, refresh, re-send] and the `_retry` mark is set exactly when
        the refresh has been issued. */
    ghost predicate Valid()
      reads this, config
    {
      && 1 <= |wire| <= 3
      && (forall i | 0 <= i < |wire| :: wire[i].RefreshCall? <==> i == 1)
      && (config.retry <==> |wire| >= 2)
      && (phase.AwaitingRefresh? ==> |wire| == 2)
      && (phase.AwaitingResponse? ==> |wire| != 2)
    }

    /** A measure every step decreases: the call settles after at most
        three steps. */
    function Remaining(): nat
      reads this
    {
      (if |wire| <= 3 then 2 * (3 - |wire|) else 0) + (if phase.Settled? then 0 else 1)
    }

    /** Sends the call: the request interceptor runs on a fresh config and
        the request goes out with the resulting Authorization header. */
    constructor (browser: Browser, url: string, headers: map<string, string>)
      ensures Valid() && fresh(config) && this.browser == browser
      ensures config.url == url && !config.retry
      ensures config.headers == WithBearer(headers, browser.GetItem(AccessTokenKey))
      ensures phase == AwaitingResponse && wire == [ApiCall(url, config.Authorization())]
    {
      this.browser := browser;
      var c := new RequestConfig(url, headers);
      c.AttachBearer(browser);
      config := c;
      phase := AwaitingResponse;
      wire := [ApiCall(url, c.Authorization())];
    }

    /** The response interceptor. A success, any other error, or a 401 on a
        call already marked as retried settles the call with that very
        outcome. The first 401 sets the mark, then sends the stored refresh
        token (whatever is stored, even nothing) to the refresh endpoint. */
    method OnResponse(o: Outcome<T>)
      requires Valid() && phase.AwaitingResponse?
      modifies this, config
      ensures Valid() && Remaining() < old(Remaining())
      ensures config.headers == old(config.headers)
      ensures if IsUnauthorized(o) && !old(config.retry) then
          && config.retry
          && phase == AwaitingRefresh(o.error)
          && wire == old(wire) + [RefreshCall(browser.GetItem(RefreshTokenKey))]
        else
          && phase == Settled(o)
          && wire == old(wire)
          && config.retry == old(config.retry)
    {
      if IsUnauthorized(o) && !config.retry {
        config.retry := true;
        var refreshToken := browser.GetItem(RefreshTokenKey);
        wire := wire + [RefreshCall(refreshToken)];
        phase := AwaitingRefresh(o.error);
      } else {
        phase := Settled(o);
      }
    }

    /** The continuation of the refresh call. On success the new access
        token is stored (the refresh token is left as it is), put in the
        bearer header, and the call is re-sent through the instance. On
        failure both tokens are removed, the location becomes `/login`, and
        the call settles with the original 401 error. */
    method OnRefresh(r: Outcome<string>)
      requires Valid() && phase.AwaitingRefresh?
      modifies this, config, browser
      ensures Valid() && Remaining() < old(Remaining())
      ensures config.retry
      ensures r.Ok? ==>
        && browser.storage == old(browser.storage)[AccessTokenKey := r.payload]
        && browser.location == old(browser.location)
        && config.headers == old(config.headers)[AuthorizationHeader := Bearer(r.payload)]
        && phase == AwaitingResponse
        && wire == old(wire) + [ApiCall(config.url, Some(Bearer(r.payload)))]
      ensures r.Err? ==>
        && browser.storage == old(browser.storage) - {AccessTokenKey, RefreshTokenKey}
        && browser.location == Some(LoginPath)
        && config.headers == old(config.headers)
        && phase == Settled(Err(old(phase.original)))
        && wire == old(wire)
    {
      if r.Ok? {
        var token := r.payload;
        browser.SetItem(AccessTokenKey, token);
        config.headers := config.headers[AuthorizationHeader := Bearer(token)];
        // `api(original)` runs the request interceptor once more; it reads
        // the token just stored, so the header keeps the new bearer value.
        config.AttachBearer(browser);
        assert config.headers == old(config.headers)[AuthorizationHeader := Bearer(token)];
        wire := wire + [ApiCall(config.url, config.Authorization())];
        phase := AwaitingResponse;
      } else {
        browser.ClearTokens();
        browser.Assign(LoginPath);
        phase := Settled(Err(phase.original));
      }
    }
  }

  /** One call through the instance from send to settlement, given what the
      server answers to the send (`first`), to the refresh call (`refresh`,
      the new access token) and to the re-send (`second`); an answer the
      call never asks for is ignored. The caller receives `first`, except
      after a first 401 whose refresh succeeded, when it receives `second`
      (a second 401 included: the call is marked and is not refreshed
      again). At most two sends and one refresh go out. */
  method Dispatch<T>(browser: Browser, url: string, headers: map<string, string>,
                     first: Outcome<T>, refresh: Outcome<string>, second: Outcome<T>)
    returns (result: Outcome<T>, wire: seq<Wire>)
    modifies browser
    ensures 1 <= |wire| <= 3 && forall i | 0 <= i < |wire| :: wire[i].RefreshCall? <==> i == 1
    ensures wire[0] == ApiCall(url, Lookup(WithBearer(headers, Lookup(old(browser.storage), AccessTokenKey)), AuthorizationHeader))
    ensures result == if IsUnauthorized(first) && refresh.Ok? then second else first
    ensures !IsUnauthorized(first) ==>
      |wire| == 1 && browser.storage == old(browser.storage) && browser.location == old(browser.location)
    ensures IsUnauthorized(first) ==>
      |wire| >= 2 && wire[1] == RefreshCall(Lookup(old(browser.storage), RefreshTokenKey))
    ensures IsUnauthorized(first) && refresh.Ok? ==>
      && |wire| == 3
      && wire[2] == ApiCall(url, Some(Bearer(refresh.payload)))
      && browser.storage == old(browser.storage)[AccessTokenKey := refresh.payload]
      && browser.location == old(browser.location)
    ensures IsUnauthorized(first) && refresh.Err? ==>
      && |wire| == 2
      && browser.storage == old(browser.storage) - {AccessTokenKey, RefreshTokenKey}
      && browser.location == Some(LoginPath)
  {
    var ex := new Exchange(browser, url, headers);
    ex.OnResponse(first);
    if ex.phase.AwaitingRefresh? {
      ex.OnRefresh(refresh);
      if ex.phase.AwaitingResponse? {
        ex.OnResponse(second);
      }
    }
    result := ex.phase.result;
    wire := ex.wire;
  }

  /** `api.getUserProfile(userId)`: `GET /users/<userId>` through the
      instance; resolves with the response body unchanged or rethrows the
      rejection unchanged. */
  method GetUserProfile<T>(browser: Browser, userId: string,
                           first: Outcome<T>, refresh: Outcome<string>, second: Outcome<T>)
    returns (result: Outcome<T>, wire: seq<Wire>)
    modifies browser
    ensures 1 <= |wire| <= 3 && wire[0].ApiCall? && wire[0].url == "/users/" + userId
    ensures result == if IsUnauthorized(first) && refresh.Ok? then second else first
    ensures !IsUnauthorized(first) ==>
      |wire| == 1 && browser.storage == old(browser.storage) && browser.location == old(browser.location)
    ensures IsUnauthorized(first) && refresh.Ok? ==>
      && |wire| == 3 && wire[1] == RefreshCall(Lookup(old(browser.storage), RefreshTokenKey))
      && wire[2] == ApiCall("/users/" + userId, Some(Bearer(refresh.payload)))
      && browser.storage == old(browser.storage)[AccessTokenKey := refresh.payload]
      && browser.location == old(browser.location)
    ensures IsUnauthorized(first) && refresh.Err? ==>
      && |wire| == 2 && wire[1] == RefreshCall(Lookup(old(browser.storage), RefreshTokenKey))
      && browser.storage == old(browser.storage) - {AccessTokenKey, RefreshTokenKey}
      && browser.location == Some(LoginPath)
  {
    result, wire := Dispatch(browser, "/users/" + userId, map[], first, refresh, second);
  }
}

=== FILE: auth_context.dfy ===
/** The session provider: the current user (or none), a loading flag that
    starts true and only ever becomes false, and the logout, fetch-user,
    login and signup transitions over the credential store. */
module AuthContext {
  import opened Js
  import opened Http
  import opened Domain
  import opened Api

  /** The state the provider hands to its consumers. */
  datatype Session = Session(user: Option<User>, loading: bool)

  /** `{ success: true }` or `{ success: false, error }`. */
  datatype AuthResult = AuthResult(success: bool, error: Option<string>)

  class AuthProvider {
    const browser: Browser
    var user: Option<User>
    var loading: bool

    function Value(): Session
      reads this
    {
      Session(user, loading)
    }

    /** Mounting: no user yet, loading. */
    constructor (browser: Browser)
      ensures this.browser == browser && Value() == Session(None, true)
    {
      this.browser := browser;
      user := None;
      loading := true;
    }

    /** Synchronous, no request: both tokens removed and the user cleared. */
    method Logout()
      modifies this, browser
      ensures browser.storage == old(browser.storage) - {AccessTokenKey, RefreshTokenKey}
      ensures browser.location == old(browser.location)
      ensures user == None && loading == old(loading)
    {
      browser.ClearTokens();
      user := None;
    }

    /** `fetchUser` up to its await. Without a truthy stored access token no
        request is made (None) and loading ends; otherwise the token the
        `/users/me` request carries is returned and nothing changes yet. */
    method FetchUserStart() returns (bearer: Option<string>)
      modifies this
      ensures var access := browser.GetItem(AccessTokenKey);
        && (Truthy(access) ==> bearer == Some(access.value) && loading == old(loading))
        && (!Truthy(access) ==> bearer == None && !loading)
      ensures user == old(user)
      ensures browser.storage == old(browser.storage)
    {
      var access := browser.GetItem(AccessTokenKey);
      if !Truthy(access) {
        loading := false;
        return None;
      }
      bearer := Some(access.value);
    }

    /** `fetchUser` after its await: the response's user on success, a
        logout on failure, and loading false either way. */
    method FetchUserResolve(o: Outcome<MeBody>)
      modifies this, browser
      ensures !loading
      ensures o.Ok? ==> user == o.payload.user && browser.storage == old(browser.storage)
      ensures o.Err? ==> user == None && browser.storage == old(browser.storage) - {AccessTokenKey, RefreshTokenKey}
      ensures browser.location == old(browser.location)
    {
      if o.Ok? {
        user := o.payload.user;
      } else {
        Logout();
      }
      loading := false;
    }

    /** `login` after its await. */
    method Login(o: Outcome<AuthBody>) returns (r: AuthResult)
      modifies this, browser
      ensures loading == old(loading) && browser.location == old(browser.location)
      ensures o.Ok? ==>
        && r == AuthResult(true, None)
        && browser.storage == old(browser.storage)[AccessTokenKey := o.payload.accessToken][RefreshTokenKey := o.payload.refreshToken]
        && user == Some(o.payload.user)
      ensures o.Err? ==>
        && r == AuthResult(false, Some(ServerErrorOr(o.error, o.error.message)))
        && browser.storage == old(browser.storage)
        && user == old(user)
    {
      r := Authenticate(o);
    }

    /** `signup` after its await: the same transition as `login`. */
    method Signup(o: Outcome<AuthBody>) returns (r: AuthResult)
      modifies this, browser
      ensures loading == old(loading) && browser.location == old(browser.location)
      ensures o.Ok? ==>
        && r == AuthResult(true, None)
        && browser.storage == old(browser.storage)[AccessTokenKey := o.payload.accessToken][RefreshTokenKey := o.payload.refreshToken]
        && user == Some(o.payload.user)
      ensures o.Err? ==>
        && r == AuthResult(false, Some(ServerErrorOr(o.error, o.error.message)))
        && browser.storage == old(browser.storage)
        && user == old(user)
    {
      r := Authenticate(o);
    }

    /** What `login` and `signup` share: store both tokens and the user, or
        report the server's error text, else the exception message. */
    method Authenticate(o: Outcome<AuthBody>) returns (r: AuthResult)
      modifies this, browser
      ensures loading == old(loading) && browser.location == old(browser.location)
      ensures o.Ok? ==>
        && r == AuthResult(true, None)
        && browser.storage == old(browser.storage)[AccessTokenKey := o.payload.accessToken][RefreshTokenKey := o.payload.refreshToken]
        && user == Some(o.payload.user)
      ensures o.Err? ==>
        && r == AuthResult(false, Some(ServerErrorOr(o.error, o.error.message)))
        && browser.storage == old(browser.storage)
        && user == old(user)
    {
      match o
      case Ok(body) =>
        browser.StoreTokens(body.accessToken, body.refreshToken);
        user := Some(body.user);
        r := AuthResult(true, None);
      case Err(e) =>
        r := AuthResult(false, Some(ServerErrorOr(e, e.message)));
    }
  }
}

=== FILE: chat_window.dfy ===
/** The local chat window: two seeded messages, and sending a non-blank
    input as a message from "Me". */
module Chat {
  import opened Js

  datatype Message = Message(id: int, text: string, sender: string)

  /** The seeded conversation. */
  const Seed := [Message(1, "Hey there!", "Alice"), Message(2, "Hello \U{1F44B}", "Me")]

  class ChatWindow {
    var messages: seq<Message>
    var input: string

    /** The seed always heads the list and no message is blank. */
    ghost predicate Valid()
      reads this
    {
      && |messages| >= |Seed| && messages[..|Seed|] == Seed
      && forall i | 0 <= i < |messages| :: !AllSpace(messages[i].text)
    }

    constructor ()
      ensures Valid() && messages == Seed && input == ""
    {
      messages := Seed;
      input := "";
      assert !IsSpace(Seed[0].text[0]) && !IsSpace(Seed[1].text[0]);
    }

    method Type(text: string)
      modifies this
      ensures input == text && messages == old(messages)
    {
      input := text;
    }

    /** `sendMessage`, with the clock value `now` as the id: a blank input
        changes nothing; otherwise the input, as typed, is appended as a
        message from "Me" and the input is cleared. */
    method Send(now: int)
      requires Valid()
      modifies this
      ensures Valid()
      ensures AllSpace(old(input)) ==> messages == old(messages) && input == old(input)
      ensures !AllSpace(old(input)) ==> messages == old(messages) + [Message(now, old(input), "Me")] && input == ""
    {
      if IsBlank(input) {
        return;
      }
      var sent := Message(now, input, "Me");
      var next := messages + [sent];
      forall i | 0 <= i < |next|
        ensures !AllSpace(next[i].text)
      {
        if i < |messages| {
          assert next[i] == messages[i];
        }
      }
      assert next[..|Seed|] == messages[..|Seed|];
      messages := next;
      input := "";
    }
  }
}

=== FILE: create_post_component.dfy ===
/** The feed's composer: text plus an optional media file with its preview
    URL, the upload field the file goes in, and the submit that hands the
    created post to the feed. */
module Composer {
  import opened Js
  import opened Http
  import opened Domain

  /** A selected file: its name and its MIME type (`file.type`). */
  datatype File = File(name: string, mimeType: string)

  /** The form field the file is uploaded under: "video" exactly for a
      `video/` type, "image" for every other type. */
  function FieldName(f: File): (r: string)
    ensures r == "video" <==> StartsWith(f.mimeType, "video/")
    ensures r == "video" || r == "image"
  {
    if StartsWith(f.mimeType, "video/") then "video" else "image"
  }

  /** How the preview shows the file: an image exactly for an `image/`
      type, a video player for every other type. */
  function PreviewKind(f: File): (r: string)
    ensures r == "image" <==> StartsWith(f.mimeType, "image/")
    ensures r == "video" || r == "image"
  {
    if StartsWith(f.mimeType, "image/") then "image" else "video"
  }

  /** The two rules agree on image and video files but not on a file whose
      type is neither: it is previewed in a video player and uploaded in
      the image field. */
  lemma PreviewAndFieldDisagreeOnOtherTypes(f: File)
    requires !StartsWith(f.mimeType, "image/") && !StartsWith(f.mimeType, "video/")
    ensures PreviewKind(f) == "video" && FieldName(f) == "image"
  {
  }

  /** The multipart body: the content, and the file under its field. */
  datatype Upload = Upload(content: string, media: Option<(string, File)>)

  class PostComposer {
    var content: string
    var file: Option<File>
    var preview: Option<string>
    var submitting: bool

    /** A preview URL is held exactly while a file is selected. */
    ghost predicate Valid()
      reads this
    {
      preview.Some? <==> file.Some?
    }

    constructor ()
      ensures Valid() && content == "" && file == None && preview == None && !submitting
    {
      content := "";
      file := None;
      preview := None;
      submitting := false;
    }

    method Type(text: string)
      modifies this
      ensures content == text && file == old(file) && preview == old(preview) && submitting == old(submitting)
    {
      content := text;
    }

    /** A new file selection: the file and a fresh object URL for it, or
        neither when the selection is empty. */
    method FileChange(selected: Option<File>, objectUrl: string)
      modifies this
      ensures Valid()
      ensures file == selected
      ensures preview == if selected.Some? then Some(objectUrl) else None
      ensures content == old(content) && submitting == old(submitting)
    {
      file := selected;
      preview := if selected.Some? then Some(objectUrl) else None;
    }

    method RemoveFile()
      modifies this
      ensures Valid() && file == None && preview == None
      ensures content == old(content) && submitting == old(submitting)
    {
      file := None;
      preview := None;
    }

    /** Whether the Post button is enabled. */
    function CanSubmit(): (b: bool)
      reads this
      ensures b <==> !submitting && (!AllSpace(content) || file.Some?)
    {
      !submitting && !(IsBlank(content) && file.None?)
    }

    /** `handleSubmit` up to its await: no request when the text is blank
        and there is no file, or when there is no user; otherwise the
        upload goes out (the text untrimmed, the file under its field) and
        the composer is submitting. */
    method SubmitStart(user: Option<User>) returns (upload: Option<Upload>)
      modifies this
      ensures upload.None? <==> (AllSpace(content) && file.None?) || user.None?
      ensures upload.None? ==> submitting == old(submitting)
      ensures upload.Some? ==> submitting && upload.value.content == content
      ensures upload.Some? ==> (upload.value.media.Some? <==> file.Some?)
      ensures upload.Some? && file.Some? ==> upload.value.media.value == (FieldName(file.value), file.value)
      ensures content == old(content) && file == old(file) && preview == old(preview)
    {
      var blank := IsBlank(content);
      if (blank && file.None?) || user.None? {
        return None;
      }
      submitting := true;
      var media := None;
      if file.Some? {
        media := Some((FieldName(file.value), file.value));
      }
      upload := Some(Upload(content, media));
    }

    /** After the answer: on success the created post is handed on and the
        text, file and preview are cleared; on failure the draft stays. The
        composer stops submitting either way. */
    method SubmitResolve(o: Outcome<Post>) returns (created: Option<Post>)
      requires Valid()
      modifies this
      ensures Valid() && !submitting
      ensures o.Ok? ==> created == Some(o.payload) && content == "" && file == None && preview == None
      ensures o.Err? ==> created == None && content == old(content) && file == old(file) && preview == old(preview)
    {
      created := None;
      if o.Ok? {
        created := Some(o.payload);
        content := "";
        RemoveFile();
      }
      submitting := false;
    }
  }
}

=== FILE: create_post_page.dfy ===
/** The text-only composer of the create-post page. */
module SimpleComposer {
  import opened Js
  import opened Http
  import opened Domain

  class TextOnlyComposer {
    var content: string
    var submitting: bool

    constructor ()
      ensures content == "" && !submitting
    {
      content := "";
      submitting := false;
    }

    method Type(text: string)
      modifies this
      ensures content == text && submitting == old(submitting)
    {
      content := text;
    }

    /** The button is disabled while submitting or without a user; a blank
        text is not checked here but by the handler. */
    function ButtonEnabled(user: Option<User>): (b: bool)
      reads this
      ensures b <==> !submitting && user.Some?
    {
      !submitting && user.Some?
    }

    /** `handleSubmit` up to its await: no request for a blank text or
        without a user; otherwise `{ content }` goes out, untrimmed, and the
        composer is submitting. */
    method SubmitStart(user: Option<User>) returns (body: Option<string>)
      modifies this
      ensures body.None? <==> AllSpace(content) || user.None?
      ensures body.None? ==> submitting == old(submitting)
      ensures body.Some? ==> body.value == content && submitting
      ensures content == old(content)
    {
      if IsBlank(content) || user.None? {
        return None;
      }
      submitting := true;
      body := Some(content);
    }

    /** After the answer: the created post handed on and the text cleared
        on success, the text kept on failure; submitting ends either way. */
    method SubmitResolve(o: Outcome<Post>) returns (created: Option<Post>)
      modifies this
      ensures !submitting
      ensures o.Ok? ==> created == Some(o.payload) && content == ""
      ensures o.Err? ==> created == None && content == old(content)
    {
      created := None;
      if o.Ok? {
        created := Some(o.payload);
        content := "";
      }
      submitting := false;
    }
  }
}

=== FILE: domain.dfy ===
/** The records the client receives from the server, the routes it
    navigates to, and the media rule shared by the feed and the post page. */
module Domain {
  import opened Js

  /** A user as `/users/me` and the auth endpoints return it. */
  datatype User = User(id: int, username: string, email: Option<string>, bio: Option<string>, avatarUrl: Option<string>)

  /** `user?.id`: absent when there is no user. */
  function IdOf(user: Option<User>): (r: Option<int>)
    ensures r.Some? <==> user.Some?
    ensures r.Some? ==> r.value == user.value.id
  {
    if user.Some? then Some(user.value.id) else None
  }

  /** The client-side routes this core navigates or redirects to:
      `/`, `/login`, `/profile/me` and `/profile/<id>` (an absent id is
      rendered as `/profile/undefined`). */
  datatype Route = RootPath | LoginPath | ProfileMePath | ProfilePath(id: Option<int>)

  /** Body of a successful `/auth/login` or `/auth/signup`. */
  datatype AuthBody = AuthBody(accessToken: string, refreshToken: string, user: User)

  /** Body of `/users/me` (GET and PUT): `data.user` may be missing. */
  datatype MeBody = MeBody(user: Option<User>)

  /** A post as the server sends it; the optional fields are the ones the
      client gives a fallback for or that a fresh post lacks. */
  datatype Post = Post(
    id: int,
    authorId: int,
    author: Option<string>,
    avatarUrl: Option<string>,
    content: string,
    mediaUrl: Option<string>,
    mediaType: Option<string>,
    likeCount: Option<int>,
    likedByMe: Option<bool>,
    commentsCount: Option<int>,
    followedAuthor: Option<bool>)

  datatype Comment = Comment(id: int, content: string, username: Option<string>, avatarUrl: Option<string>)

  /** Body of `POST /posts/:id/like`. */
  datatype LikeBody = LikeBody(liked: bool, likeCount: int)

  /** Body of `POST /follow/toggle/:id`. */
  datatype FollowBody = FollowBody(isFollowing: bool)

  /** The `image` prop: the media URL exactly when the media type is "image". */
  function ImageOf(p: Post): (r: Option<string>)
    ensures p.mediaType == Some("image") ==> r == p.mediaUrl
    ensures p.mediaType != Some("image") ==> r == None
  {
    if p.mediaType == Some("image") then p.mediaUrl else None
  }

  /** The `video` prop: the media URL exactly when the media type is "video". */
  function VideoOf(p: Post): (r: Option<string>)
    ensures p.mediaType == Some("video") ==> r == p.mediaUrl
    ensures p.mediaType != Some("video") ==> r == None
  {
    if p.mediaType == Some("video") then p.mediaUrl else None
  }

  /** A card never gets both an image and a video. */
  lemma ImageOrVideo(p: Post)
    ensures ImageOf(p) == None || VideoOf(p) == None
  {
  }
}

=== FILE: follow.dfy ===
/** The followers / following list of one user: the endpoint it loads from,
    the optimistic follow toggle with its server confirmation or revert, and
    which rows offer a toggle. */
module Follow {
  import opened Js
  import opened Http
  import opened Domain

  const FollowersPrefix := "/follow/followers/"
  const FollowingPrefix := "/follow/following/"

  /** The list endpoint: the followers prefix exactly when the route's type
      is "followers", the following prefix for any other type, followed by
      the user id as given. */
  function Endpoint(kind: string, userId: string): (r: string)
    ensures StartsWith(r, FollowersPrefix) <==> kind == "followers"
    ensures StartsWith(r, FollowersPrefix) || StartsWith(r, FollowingPrefix)
    ensures |r| == 18 + |userId| && r[18..] == userId
  {
    var r := (if kind == "followers" then FollowersPrefix else FollowingPrefix) + userId;
    assert r[..18] == (if kind == "followers" then FollowersPrefix else FollowingPrefix);
    assert FollowingPrefix[14] != FollowersPrefix[14];
    r
  }

  /** One row of the list. An absent `followed_by_me` is read as false: the
      rendering tests its truthiness and `!` flips it to true, as for false. */
  datatype FollowEntry = FollowEntry(id: int, username: string, avatarUrl: Option<string>, followedByMe: bool)

  /** Row `index` with its mark set to `b`; every other row untouched. */
  function SetFollowedAt(users: seq<FollowEntry>, index: nat, b: bool): (r: seq<FollowEntry>)
    requires index < |users|
    ensures |r| == |users| && r[index] == users[index].(followedByMe := b)
    ensures forall i | 0 <= i < |users| && i != index :: r[i] == users[i]
  {
    users[index := users[index].(followedByMe := b)]
  }

  /** Row `index` with its mark negated; every other row untouched. */
  function FlipAt(users: seq<FollowEntry>, index: nat): (r: seq<FollowEntry>)
    requires index < |users|
    ensures |r| == |users| && r[index].followedByMe == !users[index].followedByMe
    ensures r[index].id == users[index].id && r[index].username == users[index].username
    ensures forall i | 0 <= i < |users| && i != index :: r[i] == users[i]
  {
    SetFollowedAt(users, index, !users[index].followedByMe)
  }

  /** Negating twice restores the list: the revert after a failed toggle
      undoes the optimistic step when nothing came in between. */
  lemma FlipTwiceRestores(users: seq<FollowEntry>, index: nat)
    requires index < |users|
    ensures FlipAt(FlipAt(users, index), index) == users
  {
    assert FlipAt(FlipAt(users, index), index)[index] == users[index];
  }

  /** The button a row shows: none on the current user's own row, else
      "Following" or "Follow" after the row's mark. */
  datatype Button = NoButton | ToggleButton(caption: string)

  function ButtonFor(currentUser: User, entry: FollowEntry): (b: Button)
    ensures b == NoButton <==> currentUser.id == entry.id
    ensures b.ToggleButton? ==> (b.caption == "Following" <==> entry.followedByMe)
    ensures b.ToggleButton? ==> (b.caption == "Follow" <==> !entry.followedByMe)
  {
    if currentUser.id == entry.id then NoButton
    else ToggleButton(if entry.followedByMe then "Following" else "Follow")
  }

  class FollowList {
    const kind: string
    const userId: string
    var users: seq<FollowEntry>
    var loading: bool

    /** Mounting: an empty list, loading. */
    constructor (kind: string, userId: string)
      ensures this.kind == kind && this.userId == userId
      ensures users == [] && loading
    {
      this.kind := kind;
      this.userId := userId;
      users := [];
      loading := true;
    }

    /** `fetchUsers` up to its await: loading again, and the endpoint
        requested. */
    method FetchStart() returns (endpoint: string)
      modifies this
      ensures endpoint == Endpoint(kind, userId)
      ensures loading && users == old(users)
    {
      loading := true;
      endpoint := Endpoint(kind, userId);
    }

    /** `fetchUsers` after its await: the body replaces the list on success,
        a failure keeps the old list; loading ends either way. */
    method FetchResolve(o: Outcome<seq<FollowEntry>>)
      modifies this
      ensures !loading
      ensures o.Ok? ==> users == o.payload
      ensures o.Err? ==> users == old(users)
    {
      if o.Ok? {
        users := o.payload;
      }
      loading := false;
    }

    /** `toggleFollow` up to its await: the row's mark negated at once. */
    method ToggleStart(index: nat)
      requires index < |users|
      modifies this
      ensures users == FlipAt(old(users), index) && loading == old(loading)
    {
      users := FlipAt(users, index);
    }

    /** `toggleFollow` after its await: the server's `isFollowing` on
        success, the mark negated once more on failure. */
    method ToggleResolve(index: nat, o: Outcome<FollowBody>)
      requires index < |users|
      modifies this
      ensures o.Ok? ==> users == SetFollowedAt(old(users), index, o.payload.isFollowing)
      ensures o.Err? ==> users == FlipAt(old(users), index)
      ensures loading == old(loading)
    {
      match o
      case Ok(body) => users := SetFollowedAt(users, index, body.isFollowing);
      case Err(_) => users := FlipAt(users, index);
    }
  }
}

=== FILE: home.dfy ===
/** The home feed: the normalised posts, the "For You" / "Following" tabs,
    a new post put in front, and the follow toggle applied to every post of
    one author. */
module Home {
  import opened Js
  import opened Http
  import opened Domain

  const ForYouTab := "forYou"
  const FollowingTab := "following"

  /** A post with the fields the feed derives from it. */
  datatype FeedPost = FeedPost(post: Post, image: Option<string>, video: Option<string>,
                               commentsNumber: int, isFollowedAuthor: bool)

  /** The per-post mapping of a fetched feed: media split by type, a
      missing (or zero) comment count read as 0, and the followed flag read
      as a boolean (absent is false). */
  function Normalize(p: Post): (f: FeedPost)
    ensures f.post == p && f.image == ImageOf(p) && f.video == VideoOf(p)
    ensures f.commentsNumber == (if p.commentsCount.Some? then p.commentsCount.value else 0)
    ensures f.isFollowedAuthor <==> p.followedAuthor == Some(true)
    ensures f.image == None || f.video == None
  {
    ImageOrVideo(p);
    FeedPost(p, ImageOf(p), VideoOf(p), p.commentsCount.GetOr(0), p.followedAuthor.GetOr(false))
  }

  function NormalizeAll(ps: seq<Post>): (r: seq<FeedPost>)
    ensures |r| == |ps| && forall i | 0 <= i < |ps| :: r[i] == Normalize(ps[i])
  {
    seq(|ps|, i requires 0 <= i < |ps| => Normalize(ps[i]))
  }

  /** A post the user just created, as the feed shows it: every field of
      the created post kept except author and avatar, taken from the user
      (an empty avatar becomes absent), no likes and not liked; no
      comments, and the author not followed. */
  function Authored(newPost: Post, user: User): (f: FeedPost)
    ensures f.post == newPost.(author := Some(user.username), avatarUrl := NonEmpty(user.avatarUrl),
                               likeCount := Some(0), likedByMe := Some(false))
    ensures f.image == ImageOf(newPost) && f.video == VideoOf(newPost)
    ensures f.commentsNumber == 0 && !f.isFollowedAuthor
  {
    FeedPost(newPost.(author := Some(user.username), avatarUrl := NonEmpty(user.avatarUrl),
                      likeCount := Some(0), likedByMe := Some(false)),
             ImageOf(newPost), VideoOf(newPost), 0, false)
  }

  /** The follow toggle's update: every post by `authorId` gets the
      server's flag, every other post is left as it is, order kept. */
  function SetFollowed(posts: seq<FeedPost>, authorId: int, following: bool): (r: seq<FeedPost>)
    ensures |r| == |posts|
    ensures forall i | 0 <= i < |posts| && posts[i].post.authorId == authorId ::
      r[i] == posts[i].(isFollowedAuthor := following)
    ensures forall i | 0 <= i < |posts| && posts[i].post.authorId != authorId :: r[i] == posts[i]
  {
    seq(|posts|, i requires 0 <= i < |posts| =>
      if posts[i].post.authorId == authorId then posts[i].(isFollowedAuthor := following) else posts[i])
  }

  function IsFollowed(f: FeedPost): bool {
    f.isFollowedAuthor
  }

  /** The posts a tab lists: on "following" only followed authors' posts,
      in feed order; on any other tab every post. */
  function Visible(posts: seq<FeedPost>, tab: string): (r: seq<FeedPost>)
    ensures tab != FollowingTab ==> r == posts
    ensures tab == FollowingTab ==> |r| <= |posts| && forall i | 0 <= i < |r| :: r[i] in posts && r[i].isFollowedAuthor
    ensures tab == FollowingTab ==> forall i | 0 <= i < |posts| && posts[i].isFollowedAuthor :: posts[i] in r
  {
    if tab == FollowingTab then Filter(posts, IsFollowed) else posts
  }

  /** On "following" a single post is listed exactly when its author is
      followed. */
  lemma VisibleSingle(p: FeedPost)
    ensures Visible([p], FollowingTab) == if p.isFollowedAuthor then [p] else []
  {
    assert [p][1..] == [];
  }

  /** Splitting the feed splits the "following" tab the same way; with
      `VisibleSingle` this fixes the tab completely: the followed posts, in
      feed order, each as often as it occurs. */
  lemma VisibleConcat(a: seq<FeedPost>, b: seq<FeedPost>)
    ensures Visible(a + b, FollowingTab) == Visible(a, FollowingTab) + Visible(b, FollowingTab)
  {
    FilterConcat(a, b, IsFollowed);
  }

  /** A new post heads the "For You" tab and does not show on the
      "Following" tab, which keeps exactly what it listed before. */
  lemma {:induction false} NewPostPlacement(newPost: Post, user: User, posts: seq<FeedPost>)
    ensures Visible([Authored(newPost, user)] + posts, ForYouTab)[0] == Authored(newPost, user)
    ensures Visible([Authored(newPost, user)] + posts, FollowingTab) == Visible(posts, FollowingTab)
  {
    var a := Authored(newPost, user);
    FilterConcat([a], posts, IsFollowed);
    assert Filter([a], IsFollowed) == [];
  }

  /** After a toggle settled with `following`, a post by that author is on
      the "Following" tab exactly when `following` holds. */
  lemma FollowToggleVisibility(posts: seq<FeedPost>, authorId: int, following: bool, i: nat)
    requires i < |posts| && posts[i].post.authorId == authorId
    ensures SetFollowed(posts, authorId, following)[i] in Visible(SetFollowed(posts, authorId, following), FollowingTab)
            <==> following
  {
  }

  /** What the page renders: a loading text while the session or the feed
      is loading, else the active tab's posts. */
  datatype View = LoadingPosts | FeedView(posts: seq<FeedPost>)

  class Feed {
    var posts: seq<FeedPost>
    var loading: bool
    var activeTab: string
    var showOverlay: bool

    /** Mounting: no posts, loading, "For You", overlay closed. */
    constructor ()
      ensures posts == [] && loading && activeTab == ForYouTab && !showOverlay
    {
      posts := [];
      loading := true;
      activeTab := ForYouTab;
      showOverlay := false;
    }

    /** The fetch effect up to its await: with no user it returns at once
        and the page keeps loading; otherwise `GET /posts` goes out. */
    method FetchStart(user: Option<User>) returns (requested: bool)
      ensures requested <==> user.Some?
    {
      requested := user.Some?;
    }

    /** The fetch after its await: the normalised body on success, the old
        posts on failure; loading ends either way. */
    method FetchResolve(o: Outcome<seq<Post>>)
      modifies this
      ensures !loading && activeTab == old(activeTab) && showOverlay == old(showOverlay)
      ensures o.Ok? ==> posts == NormalizeAll(o.payload)
      ensures o.Err? ==> posts == old(posts)
    {
      if o.Ok? {
        posts := NormalizeAll(o.payload);
      }
      loading := false;
    }

    /** `handleNewPost`: the created post goes first and the overlay
        closes. */
    method NewPost(newPost: Post, user: User)
      modifies this
      ensures posts == [Authored(newPost, user)] + old(posts)
      ensures !showOverlay && loading == old(loading) && activeTab == old(activeTab)
    {
      posts := [Authored(newPost, user)] + posts;
      showOverlay := false;
    }

    /** `handleFollowToggle` after its await: on success the server's flag
        on every post of the author, on failure nothing changes. */
    method FollowToggleResolve(authorId: int, o: Outcome<FollowBody>)
      modifies this
      ensures o.Ok? ==> posts == SetFollowed(old(posts), authorId, o.payload.isFollowing)
      ensures o.Err? ==> posts == old(posts)
      ensures loading == old(loading) && activeTab == old(activeTab) && showOverlay == old(showOverlay)
    {
      if o.Ok? {
        posts := SetFollowed(posts, authorId, o.payload.isFollowing);
      }
    }

    method SelectTab(tab: string)
      modifies this
      ensures activeTab == tab && posts == old(posts) && loading == old(loading) && showOverlay == old(showOverlay)
    {
      activeTab := tab;
    }

    method SetOverlay(open: bool)
      modifies this
      ensures showOverlay == open && posts == old(posts) && loading == old(loading) && activeTab == old(activeTab)
    {
      showOverlay := open;
    }

    /** The loading text exactly while the session or the feed loads;
        otherwise the active tab's posts. */
    function Render(authLoading: bool): (v: View)
      reads this
      ensures v == LoadingPosts <==> authLoading || loading
      ensures v.FeedView? ==> v.posts == Visible(posts, activeTab)
    {
      if authLoading || loading then LoadingPosts else FeedView(Visible(posts, activeTab))
    }
  }
}

=== FILE: http.dfy ===
/** What a request through axios resolves or rejects with. Server
    responses are inputs of the model: each await in a handler is split into
    the step before it and a step that receives an `Outcome`. */
module Http {
  import opened Js

  /** An axios rejection: the HTTP status of the response, when there was
      one (None for a network failure); `response.data.error`, when the
      body had one; and the error's `message`. */
  datatype HttpError = HttpError(status: Option<int>, serverError: Option<string>, message: string)

  /** A settled request: the response body, or the rejection. */
  datatype Outcome<T> = Ok(payload: T) | Err(error: HttpError)

  /** 401 Unauthorized, section 15.5.2 of RFC 9110. */
  const Unauthorized := 401

  predicate IsUnauthorized<T>(o: Outcome<T>) {
    o.Err? && o.error.status == Some(Unauthorized)
  }

  /** `err.response?.data?.error || fallback`: the server's own message when
      it sent a non-empty one, else the fallback; never empty when the
      fallback is not. */
  function ServerErrorOr(e: HttpError, fallback: string): (r: string)
    ensures Truthy(e.serverError) ==> r == e.serverError.value
    ensures !Truthy(e.serverError) ==> r == fallback
    ensures fallback != "" ==> r != ""
  {
    OrElse(e.serverError, fallback)
  }
}

=== FILE: js.dfy ===
/** The JavaScript value semantics the client relies on: `null`/`undefined`
    versus a present value, truthiness of strings, the `||` fallback,
    `String.prototype.trim`, `String.prototype.startsWith` and
    `Array.prototype.filter`. */
module Js {

  /** A value that may be `null` or `undefined` (None) or present (Some). */
  datatype Option<T> = None | Some(value: T) {
    /** The value when present, else `d`. Where it models a default
        parameter (`like_count = 0`), `None` stands for an absent
        (`undefined`) prop only, since JavaScript keeps an explicit `null`. */
    function GetOr(d: T): T {
      match this
      case Some(v) => v
      case None => d
    }
  }

  /** JavaScript truthiness of an optional string: absent and "" are falsy. */
  predicate Truthy(s: Option<string>) {
    s.Some? && s.value != ""
  }

  /** `s || fallback` for an optional string. */
  function OrElse(s: Option<string>, fallback: string): (r: string)
    ensures Truthy(s) ==> r == s.value
    ensures !Truthy(s) ==> r == fallback
    ensures r != "" <==> Truthy(s) || fallback != ""
  {
    if Truthy(s) then s.value else fallback
  }

  /** `s || null`: an empty string becomes absent. */
  function NonEmpty(s: Option<string>): (r: Option<string>)
    ensures Truthy(s) ==> r == s
    ensures !Truthy(s) ==> r == None
  {
    if Truthy(s) then s else None
  }

  /** The characters `String.prototype.trim` removes: WhiteSpace (tab,
      vertical tab, form feed, no-break space, byte order mark and the
      space separators) and LineTerminator (line feed, carriage return,
      line and paragraph separators). */
  predicate IsSpace(c: char) {
    || c == '\t' || c == '\n' || c == '\U{000B}' || c == '\U{000C}' || c == '\r'
    || c == ' ' || c == '\U{00A0}' || c == '\U{1680}'
    || ('\U{2000}' <= c <= '\U{200A}')
    || c == '\U{2028}' || c == '\U{2029}' || c == '\U{202F}' || c == '\U{205F}'
    || c == '\U{3000}' || c == '\U{FEFF}'
  }

  /** Every character of `s` is white space (true of ""). */
  ghost predicate AllSpace(s: string) {
    s == "" || (IsSpace(s[0]) && AllSpace(s[1..]))
  }

  /** `AllSpace` read from the other end: a string is all white space
      exactly when its last character is and the rest is. */
  lemma {:induction false} AllSpaceLast(s: string)
    requires s != ""
    ensures AllSpace(s) <==> IsSpace(s[|s| - 1]) && AllSpace(s[..|s| - 1])
  {
    if |s| > 1 {
      AllSpaceLast(s[1..]);
      assert s[1..][..|s[1..]| - 1] == s[..|s| - 1][1..];
    }
  }

  /** Drops the leading white space: the result is a suffix of `s` that is
      empty exactly when `s` is all white space. */
  function TrimStart(s: string): (r: string)
    ensures |r| <= |s| && r == s[|s| - |r|..]
    ensures r == "" <==> AllSpace(s)
    ensures r != "" ==> !IsSpace(r[0])
  {
    if s == "" || !IsSpace(s[0]) then s else TrimStart(s[1..])
  }

  /** Drops the trailing white space: the result is a prefix of `s` that is
      empty exactly when `s` is all white space. */
  function TrimEnd(s: string): (r: string)
    ensures |r| <= |s| && r == s[..|r|]
    ensures r == "" <==> AllSpace(s)
    ensures r != "" ==> !IsSpace(r[|r| - 1])
  {
    if s == "" then s
    else
      AllSpaceLast(s);
      if !IsSpace(s[|s| - 1]) then s else TrimEnd(s[..|s| - 1])
  }

  /** `s.trim()`: neither end of a non-empty result is white space, and the
      result is empty exactly when `s` holds nothing but white space. */
  function Trim(s: string): (r: string)
    ensures |r| <= |s|
    ensures r == "" <==> AllSpace(s)
    ensures r != "" ==> !IsSpace(r[0]) && !IsSpace(r[|r| - 1])
  {
    var t := TrimStart(s);
    var r := TrimEnd(t);
    assert t != "" ==> !AllSpace(t);
    assert r != "" ==> r[0] == t[0];
    r
  }

  /** `!s.trim()`, the blank-input guard of every submit handler. */
  function IsBlank(s: string): (b: bool)
    ensures b <==> AllSpace(s)
  {
    Trim(s) == ""
  }

  /** `s.startsWith(prefix)`. */
  predicate StartsWith(s: string, prefix: string) {
    |prefix| <= |s| && s[..|prefix|] == prefix
  }

  /** `xs.filter(keep)`: the elements of `xs` that satisfy `keep`, in order. */
  function Filter<T>(xs: seq<T>, keep: T -> bool): (r: seq<T>)
    ensures |r| <= |xs|
    ensures forall i | 0 <= i < |r| :: r[i] in xs && keep(r[i])
    ensures forall i | 0 <= i < |xs| && keep(xs[i]) :: xs[i] in r
  {
    if xs == [] then []
    else
      var rest := Filter(xs[1..], keep);
      assert forall i | 0 < i < |xs| :: xs[i] == xs[1..][i - 1];
      (if keep(xs[0]) then [xs[0]] else []) + rest
  }

  /** Filtering distributes over concatenation; with the membership
      ensures of Filter this pins the result down to "the kept elements,
      in their original order". */
  lemma {:induction false} FilterConcat<T>(xs: seq<T>, ys: seq<T>, keep: T -> bool)
    ensures Filter(xs + ys, keep) == Filter(xs, keep) + Filter(ys, keep)
  {
    if xs == [] {
      assert xs + ys == ys;
    } else {
      assert (xs + ys)[0] == xs[0];
      assert (xs + ys)[1..] == xs[1..] + ys;
      FilterConcat(xs[1..], ys, keep);
    }
  }

  /** A filter that keeps every element is the identity. */
  lemma {:induction false} FilterKeepsAll<T>(xs: seq<T>, keep: T -> bool)
    requires forall i | 0 <= i < |xs| :: keep(xs[i])
    ensures Filter(xs, keep) == xs
  {
    if xs != [] {
      FilterKeepsAll(xs[1..], keep);
    }
  }
}

=== FILE: login.dfy ===
/** The login page: clears its messages, stores both tokens from a
    successful login and schedules the move to the user's profile, or shows
    the server's error. It does not touch the session provider. */
module LoginPage {
  import opened Js
  import opened Http
  import opened Domain
  import opened Api

  const LoginSucceeded := "Login successful! Redirecting..."
  const LoginFailed := "Login failed. Try again."

  class LoginForm {
    const browser: Browser
    var error: string
    var success: string

    constructor (browser: Browser)
      ensures this.browser == browser && error == "" && success == ""
    {
      this.browser := browser;
      error := "";
      success := "";
    }

    /** `handleSubmit` up to its await: both messages cleared. */
    method SubmitStart()
      modifies this
      ensures error == "" && success == ""
    {
      error := "";
      success := "";
    }

    /** After `POST /auth/login`. On success both tokens are stored, the
        success message shows and a move to `/profile/<user id>` is
        scheduled (1.5 s later). On failure the server's error, else the
        fixed text, shows, and nothing is stored or scheduled. */
    method SubmitResolve(o: Outcome<AuthBody>) returns (navigateTo: Option<Route>)
      modifies this, browser
      ensures browser.location == old(browser.location)
      ensures o.Ok? ==>
        && browser.storage == old(browser.storage)[AccessTokenKey := o.payload.accessToken][RefreshTokenKey := o.payload.refreshToken]
        && success == LoginSucceeded && error == old(error)
        && navigateTo == Some(ProfilePath(Some(o.payload.user.id)))
      ensures o.Err? ==>
        && browser.storage == old(browser.storage)
        && error == ServerErrorOr(o.error, LoginFailed) && error != "" && success == old(success)
        && navigateTo == None
    {
      match o
      case Ok(body) =>
        browser.StoreTokens(body.accessToken, body.refreshToken);
        success := LoginSucceeded;
        navigateTo := Some(ProfilePath(Some(body.user.id)));
      case Err(e) =>
        error := ServerErrorOr(e, LoginFailed);
        navigateTo := None;
    }
  }
}

=== FILE: post_card.dfy ===
/** One post in a list: its optimistic like toggle, the resync of the local
    like state from the props, the delete confirmation and the author link. */
module PostCard {
  import opened Js
  import opened Http
  import opened Domain

  /** The card's local like state: `liked` and the displayed `likes`. */
  datatype LikeState = LikeState(liked: bool, likes: int)

  /** One application of the card's two updaters, `liked` flipped from its
      latest value and `likes` moved by one in the direction given by
      `captured`, the `liked` the click handler saw when it was created
      (not the latest one). The optimistic step and the failure path both
      apply exactly this. */
  function Flip(s: LikeState, captured: bool): (t: LikeState)
    ensures t.liked != s.liked
    ensures captured ==> t.likes == s.likes - 1
    ensures !captured ==> t.likes == s.likes + 1
  {
    LikeState(!s.liked, if captured then s.likes - 1 else s.likes + 1)
  }

  /** The optimistic step of a click (captured value = current value): a
      like adds one, an unlike removes one, so the count moves with the
      new `liked`. */
  lemma OptimisticStepFollowsLiked(s: LikeState)
    ensures Flip(s, s.liked).liked == !s.liked
    ensures Flip(s, s.liked).likes == s.likes + (if Flip(s, s.liked).liked then 1 else -1)
  {
  }

  /** A failed request, with nothing in between: `liked` is back to its
      pre-click value but the count has moved twice the same way, two away
      from the pre-click count. */
  lemma FailedLikeDrifts(s: LikeState)
    ensures Flip(Flip(s, s.liked), s.liked) == LikeState(s.liked, s.likes + (if s.liked then -2 else 2))
  {
  }

  /** Two optimistic clicks in a row (the second handler captured the
      flipped value) return to the starting state. */
  lemma DoubleClickRestores(s: LikeState)
    ensures Flip(Flip(s, s.liked), !s.liked) == s
  {
  }

  /** The revert the design intends: `liked` flipped back and the count
      moved back against the captured direction. */
  function Undo(s: LikeState, captured: bool): (t: LikeState)
    ensures t.liked != s.liked
    ensures captured ==> t.likes == s.likes + 1
    ensures !captured ==> t.likes == s.likes - 1
  {
    LikeState(!s.liked, if captured then s.likes + 1 else s.likes - 1)
  }

  /** With `Undo`, a failed like restores the pre-click snapshot exactly. */
  lemma UndoRestoresSnapshot(s: LikeState)
    ensures Undo(Flip(s, s.liked), s.liked) == s
  {
  }

  /** Where a click on the author goes: `/profile/me` exactly when
      `author_id === user?.id` (so also when both are absent), else
      `/profile/<author_id>`. */
  function AuthorTarget(authorId: Option<int>, user: Option<User>): (r: Route)
    ensures r == ProfileMePath <==> authorId == IdOf(user)
    ensures r != ProfileMePath ==> r == ProfilePath(authorId)
  {
    if authorId == IdOf(user) then ProfileMePath else ProfilePath(authorId)
  }

  class Card {
    const id: int
    var propLikes: int
    var propLiked: bool
    var likes: int
    var liked: bool
    var showMenu: bool
    var showConfirm: bool

    function Like(): LikeState
      reads this
    {
      LikeState(liked, likes)
    }

    /** First render: `like_count` defaults to 0 and `liked_by_me` to
        false; menu and dialog closed. */
    constructor (id: int, likeCount: Option<int>, likedByMe: Option<bool>)
      ensures this.id == id
      ensures Like() == LikeState(likedByMe.GetOr(false), likeCount.GetOr(0))
      ensures propLikes == likeCount.GetOr(0) && propLiked == likedByMe.GetOr(false)
      ensures !showMenu && !showConfirm
    {
      this.id := id;
      propLikes := likeCount.GetOr(0);
      propLiked := likedByMe.GetOr(false);
      likes := likeCount.GetOr(0);
      liked := likedByMe.GetOr(false);
      showMenu := false;
      showConfirm := false;
    }

    /** A re-render with new props: the effect resets `likes` and `liked`
        from the props (after their defaults) whenever either changed. */
    method ReceiveProps(likeCount: Option<int>, likedByMe: Option<bool>)
      modifies this
      ensures propLikes == likeCount.GetOr(0) && propLiked == likedByMe.GetOr(false)
      ensures (propLikes != old(propLikes) || propLiked != old(propLiked)) ==>
        Like() == LikeState(propLiked, propLikes)
      ensures (propLikes == old(propLikes) && propLiked == old(propLiked)) ==>
        Like() == old(Like())
      ensures showMenu == old(showMenu) && showConfirm == old(showConfirm)
    {
      var n, b := likeCount.GetOr(0), likedByMe.GetOr(false);
      if n != propLikes || b != propLiked {
        likes := n;
        liked := b;
      }
      propLikes, propLiked := n, b;
    }

    /** `handleLike` up to its await. Without a user nothing changes and no
        request is made (None). Otherwise the optimistic step is applied
        and the captured `liked` is returned: the request
        `POST /posts/<id>/like` is in flight. */
    method LikeStart(user: Option<User>) returns (captured: Option<bool>)
      modifies this
      ensures user.None? ==> captured == None && Like() == old(Like())
      ensures user.Some? ==> captured == Some(old(liked)) && Like() == Flip(old(Like()), old(liked))
      ensures propLikes == old(propLikes) && propLiked == old(propLiked)
      ensures showMenu == old(showMenu) && showConfirm == old(showConfirm)
    {
      if user.None? {
        return None;
      }
      captured := Some(liked);
      liked, likes := Flip(Like(), liked).liked, Flip(Like(), liked).likes;
    }

    /** `handleLike` after its await, in the same closure (`captured`): the
        server's values on success; on failure the same updaters again,
        which restores `liked` but not the count. */
    method LikeResolve(captured: bool, o: Outcome<LikeBody>)
      modifies this
      ensures o.Ok? ==> Like() == LikeState(o.payload.liked, o.payload.likeCount)
      ensures o.Err? ==> Like() == Flip(old(Like()), captured)
      ensures propLikes == old(propLikes) && propLiked == old(propLiked)
      ensures showMenu == old(showMenu) && showConfirm == old(showConfirm)
    {
      match o
      case Ok(body) =>
        liked := body.liked;
        likes := body.likeCount;
      case Err(_) =>
        var t := Flip(Like(), captured);
        liked, likes := t.liked, t.likes;
    }

    /** `handleDeleteConfirm`: the id handed to `onDelete` when one is
        provided, and both the menu and the dialog closed. */
    method DeleteConfirm(hasOnDelete: bool) returns (deleted: Option<int>)
      modifies this
      ensures deleted.Some? <==> hasOnDelete
      ensures deleted.Some? ==> deleted.value == id
      ensures !showMenu && !showConfirm
      ensures Like() == old(Like())
    {
      deleted := if hasOnDelete then Some(id) else None;
      showConfirm := false;
      showMenu := false;
    }
  }
}

=== FILE: post_detail.dfy ===
/** The older post detail page: the post and comments from one fetch, the
    media rule of the detail view, and adding a comment, which appends to
    the list as it was when the submit began. */
module PostDetail {
  import opened Js
  import opened Http
  import opened Domain

  /** Body of `GET /posts/:id` as this page reads it: `data.post` and
      `data.comments`, either of which may be missing. */
  datatype DetailBody = DetailBody(post: Option<Post>, comments: Option<seq<Comment>>)

  datatype Media = NoMedia | ImageMedia(url: string) | VideoMedia(url: string)

  /** The detail view's media: nothing without a truthy media URL; a video
      when the type is "video"; an image for every other type, an absent
      one included. */
  function MediaOf(p: Post): (m: Media)
    ensures m == NoMedia <==> !Truthy(p.mediaUrl)
    ensures m.VideoMedia? <==> Truthy(p.mediaUrl) && p.mediaType == Some("video")
    ensures m != NoMedia ==> m.url == p.mediaUrl.value
  {
    if !Truthy(p.mediaUrl) then NoMedia
    else if p.mediaType == Some("video") then VideoMedia(p.mediaUrl.value)
    else ImageMedia(p.mediaUrl.value)
  }

  /** The detail view and the card disagree on untyped media: a post with a
      media URL but no media type shows an image here and no media on a
      card. */
  lemma UntypedMediaShownOnlyHere(p: Post)
    requires Truthy(p.mediaUrl) && p.mediaType == None
    ensures MediaOf(p) == ImageMedia(p.mediaUrl.value)
    ensures ImageOf(p) == None && VideoOf(p) == None
  {
  }

  /** A comment submission in flight: the content sent and the list the
      submit handler's closure captured. */
  datatype Pending = Pending(content: string, comments: seq<Comment>)

  class DetailThread {
    var post: Option<Post>
    var comments: seq<Comment>
    var newComment: string

    constructor ()
      ensures post == None && comments == [] && newComment == ""
    {
      post := None;
      comments := [];
      newComment := "";
    }

    /** The fetch after its await: `data.post` (the page keeps loading when
        it is missing) and `data.comments` or none; a failure changes
        nothing. */
    method FetchResolve(o: Outcome<DetailBody>)
      modifies this
      ensures o.Ok? ==> post == o.payload.post && comments == o.payload.comments.GetOr([])
      ensures o.Err? ==> post == old(post) && comments == old(comments)
      ensures newComment == old(newComment)
    {
      if o.Ok? {
        post := o.payload.post;
        comments := o.payload.comments.GetOr([]);
      }
    }

    method Type(text: string)
      modifies this
      ensures newComment == text && post == old(post) && comments == old(comments)
    {
      newComment := text;
    }

    /** `handleAddComment` up to its await: no request for a blank draft
        (no user check here); otherwise the draft goes out and the closure
        holds the current list. */
    method AddCommentStart() returns (pending: Option<Pending>)
      ensures pending.Some? <==> !AllSpace(newComment)
      ensures pending.Some? ==> pending.value == Pending(newComment, comments)
    {
      if IsBlank(newComment) {
        return None;
      }
      pending := Some(Pending(newComment, comments));
    }

    /** After the answer: the list becomes the captured list plus the new
        comment (whatever was appended since is dropped), and the draft is
        cleared; a failure changes nothing. */
    method AddCommentResolve(pending: Pending, o: Outcome<Comment>)
      modifies this
      ensures o.Ok? ==> comments == pending.comments + [o.payload] && newComment == ""
      ensures o.Err? ==> comments == old(comments) && newComment == old(newComment)
      ensures post == old(post)
    {
      if o.Ok? {
        comments := pending.comments + [o.payload];
        newComment := "";
      }
    }
  }
}

=== FILE: post_form.dfy ===
/** The 280-character post form: edits limited by the text area, a counter
    that turns red in the last twenty characters, and a post that clears
    the text on success. */
module PostForm {
  import opened Js
  import opened Http
  import opened Domain

  const MaxChars := 280
  /** The counter turns red above this many characters. */
  const WarnAbove := MaxChars - 20

  /** A user edit of the text area under `maxlength`: the selection
      `before[selStart..selEnd]` (empty for a plain caret) is replaced by
      as much of `inserted` as still fits under `MaxChars`. Text around the
      selection is kept, a keystroke into full text is refused, and an
      insertion that fits is kept whole. */
  function Edited(before: string, selStart: nat, selEnd: nat, inserted: string): (r: string)
    requires selStart <= selEnd <= |before|
    ensures |before| <= MaxChars ==> |r| <= MaxChars
    ensures selStart + (|before| - selEnd) <= |r| <= selStart + (|before| - selEnd) + |inserted|
    ensures r[..selStart] == before[..selStart] && r[|r| - (|before| - selEnd)..] == before[selEnd..]
    ensures r[selStart..|r| - (|before| - selEnd)] == inserted[..|r| - selStart - (|before| - selEnd)]
    ensures |before| - (selEnd - selStart) + |inserted| <= MaxChars ==> r == before[..selStart] + inserted + before[selEnd..]
    ensures selStart == selEnd && |before| >= MaxChars ==> r == before
    ensures |before| <= MaxChars ==>
      |r| == if |before| - (selEnd - selStart) + |inserted| <= MaxChars
             then |before| - (selEnd - selStart) + |inserted| else MaxChars
  {
    var room := MaxChars - (|before| - (selEnd - selStart));
    var keep := if room <= 0 then 0 else if |inserted| <= room then |inserted| else room;
    var r := before[..selStart] + inserted[..keep] + before[selEnd..];
    assert r[..selStart] == before[..selStart];
    assert r[selStart..|r| - (|before| - selEnd)] == inserted[..keep];
    assert selStart == selEnd ==> before[..selStart] + before[selEnd..] == before;
    r
  }

  /** The counter "n/280" and whether it is red. */
  datatype Counter = Counter(count: nat, max: nat, warning: bool)

  function CounterFor(text: string): (c: Counter)
    ensures c.count == |text| && c.max == MaxChars
    ensures c.warning <==> |text| > 260
  {
    Counter(|text|, MaxChars, |text| > WarnAbove)
  }

  class TextComposer {
    var text: string

    /** The text never exceeds the cap. */
    ghost predicate Valid()
      reads this
    {
      |text| <= MaxChars
    }

    constructor ()
      ensures Valid() && text == ""
    {
      text := "";
    }

    /** Typing, pasting or deleting over a selection of the text. */
    method Edit(selStart: nat, selEnd: nat, inserted: string)
      requires Valid() && selStart <= selEnd <= |text|
      modifies this
      ensures Valid() && text == Edited(old(text), selStart, selEnd, inserted)
    {
      text := Edited(text, selStart, selEnd, inserted);
    }

    /** The Post button is enabled exactly for a text that is not blank. */
    function PostEnabled(): (b: bool)
      reads this
      ensures b <==> !AllSpace(text)
    {
      !IsBlank(text)
    }

    /** `handlePost` up to its await: nothing for a blank text, otherwise
        `{ content: text }`, untrimmed. */
    method PostStart() returns (content: Option<string>)
      ensures content.None? <==> AllSpace(text)
      ensures content.Some? ==> content.value == text
    {
      if IsBlank(text) {
        return None;
      }
      content := Some(text);
    }

    /** After the answer: the text cleared and the created post handed on
        when a callback is given; a failure keeps the text. */
    method PostResolve(o: Outcome<Post>, hasCallback: bool) returns (created: Option<Post>)
      requires Valid()
      modifies this
      ensures Valid()
      ensures o.Ok? ==> text == "" && (created.Some? <==> hasCallback) && (created.Some? ==> created.value == o.payload)
      ensures o.Err? ==> text == old(text) && created == None
    {
      created := None;
      if o.Ok? {
        text := "";
        if hasCallback {
          created := Some(o.payload);
        }
      }
    }
  }
}

=== FILE: post_page.dfy ===
/** The single-post page: the post and its comments from one fetch, the
    card it renders (the comment count is the length of the local list),
    and adding a comment, which appends to the latest list. */
module PostPage {
  import opened Js
  import opened Http
  import opened Domain
  import opened Api

  /** Body of `GET /posts/:id` as this page reads it: the post itself, with
      an optional `comments` array. */
  datatype PostBody = PostBody(post: Post, comments: Option<seq<Comment>>)

  /** The props the page passes to the post card. */
  datatype CardProps = CardProps(post: Post, image: Option<string>, video: Option<string>, commentsNumber: int)

  /** The card: media split by type as in the feed, and the count of the
      comments held by the page rather than the server's count. */
  function CardFor(post: Post, comments: seq<Comment>): (c: CardProps)
    ensures c.post == post && c.image == ImageOf(post) && c.video == VideoOf(post)
    ensures c.commentsNumber == |comments|
  {
    CardProps(post, ImageOf(post), VideoOf(post), |comments|)
  }

  /** The page sets `Authorization: Bearer undefined` itself (the user
      record has no access token); the request interceptor then overwrites
      it whenever a truthy access token is stored. */
  const UndefinedBearer := "Bearer undefined"

  function CommentAuthorization(access: Option<string>): (h: Option<string>)
    ensures Truthy(access) ==> h == Some(Bearer(access.value))
    ensures !Truthy(access) ==> h == Some(UndefinedBearer)
  {
    Lookup(WithBearer(map[AuthorizationHeader := UndefinedBearer], access), AuthorizationHeader)
  }

  /** A comment request: its content and the Authorization header it
      carries. */
  datatype CommentRequest = CommentRequest(content: string, authorization: Option<string>)

  datatype View = LoadingPost | PostView(card: CardProps, comments: seq<Comment>)

  class PostThread {
    var post: Option<Post>
    var comments: seq<Comment>
    var newComment: string

    constructor ()
      ensures post == None && comments == [] && newComment == ""
    {
      post := None;
      comments := [];
      newComment := "";
    }

    /** The fetch after its await: the post and its comments (none when the
        body has no array) on success; nothing changes on failure. */
    method FetchResolve(o: Outcome<PostBody>)
      modifies this
      ensures o.Ok? ==> post == Some(o.payload.post) && comments == o.payload.comments.GetOr([])
      ensures o.Err? ==> post == old(post) && comments == old(comments)
      ensures newComment == old(newComment)
    {
      if o.Ok? {
        post := Some(o.payload.post);
        comments := o.payload.comments.GetOr([]);
      }
    }

    method Type(text: string)
      modifies this
      ensures newComment == text && post == old(post) && comments == old(comments)
    {
      newComment := text;
    }

    /** `handleAddComment` up to its await: no request without a user or
        with a blank draft; otherwise the draft as typed (untrimmed) goes
        out. Nothing changes before the answer. */
    method AddCommentStart(user: Option<User>, access: Option<string>) returns (request: Option<CommentRequest>)
      ensures request.Some? <==> user.Some? && !AllSpace(newComment)
      ensures request.Some? ==> request.value == CommentRequest(newComment, CommentAuthorization(access))
    {
      if user.None? || IsBlank(newComment) {
        return None;
      }
      request := Some(CommentRequest(newComment, CommentAuthorization(access)));
    }

    /** After the answer: the created comment appended to the latest list
        and the draft cleared; a failure changes nothing. */
    method AddCommentResolve(o: Outcome<Comment>)
      modifies this
      ensures o.Ok? ==> comments == old(comments) + [o.payload] && newComment == ""
      ensures o.Err? ==> comments == old(comments) && newComment == old(newComment)
      ensures post == old(post)
    {
      if o.Ok? {
        comments := comments + [o.payload];
        newComment := "";
      }
    }

    /** "Loading post..." until a post is held; then the card, whose count
        is the number of comments listed below it. */
    function Render(): (v: View)
      reads this
      ensures v == LoadingPost <==> post.None?
      ensures v.PostView? ==> v.comments == comments && v.card.commentsNumber == |v.comments|
    {
      if post.None? then LoadingPost else PostView(CardFor(post.value, comments), comments)
    }
  }
}

=== FILE: profile.dfy ===
/** The signed-in user's profile page: loading the user and then the user's
    own posts (with the user's avatar attached), and the profile update
    that carries the new avatar over to those posts. */
module Profile {
  import opened Js
  import opened Http
  import opened Domain

  const LoadFailed := "Failed to load profile."
  const UpdateSucceeded := "Profile updated successfully!"
  const UpdateFailed := "Update failed. Try again."

  /** The edit form's four text fields. */
  datatype ProfileForm = ProfileForm(username: string, email: string, bio: string, avatarUrl: string)

  const EmptyForm := ProfileForm("", "", "", "")

  /** The form prefilled from a loaded user: each field the user's value,
      an absent or empty one as "". */
  function FormFor(u: User): (f: ProfileForm)
    ensures f.username == u.username
    ensures (f.email == "" <==> !Truthy(u.email)) && (Truthy(u.email) ==> f.email == u.email.value)
    ensures (f.bio == "" <==> !Truthy(u.bio)) && (Truthy(u.bio) ==> f.bio == u.bio.value)
    ensures (f.avatarUrl == "" <==> !Truthy(u.avatarUrl)) && (Truthy(u.avatarUrl) ==> f.avatarUrl == u.avatarUrl.value)
  {
    ProfileForm(OrElse(Some(u.username), ""), OrElse(u.email, ""), OrElse(u.bio, ""), OrElse(u.avatarUrl, ""))
  }

  /** Every post with its avatar replaced by `avatar`, order kept. */
  function WithAvatar(posts: seq<Post>, avatar: Option<string>): (r: seq<Post>)
    ensures |r| == |posts| && forall i | 0 <= i < |posts| :: r[i] == posts[i].(avatarUrl := avatar)
  {
    seq(|posts|, i requires 0 <= i < |posts| => posts[i].(avatarUrl := avatar))
  }

  /** `post.author_id === id` as a filter callback. */
  function AuthoredBy(id: int): Post -> bool {
    (p: Post) => p.authorId == id
  }

  /** `q` is one of `u`'s posts in `all`, shown with `u`'s avatar. */
  ghost predicate PostOf(all: seq<Post>, u: User, q: Post) {
    exists j | 0 <= j < |all| :: all[j].authorId == u.id && q == all[j].(avatarUrl := u.avatarUrl)
  }

  /** The posts of `all` written by `u`, in order, each showing `u`'s
      avatar (even an absent one): every kept post is one of `u`'s posts in
      `all`, and every one of them is kept. Order and multiplicity follow
      from `OwnPostsSingle` and `OwnPostsConcat`. */
  function OwnPosts(all: seq<Post>, u: User): (r: seq<Post>)
    ensures |r| <= |all|
    ensures forall i | 0 <= i < |r| :: r[i].authorId == u.id && r[i].avatarUrl == u.avatarUrl
    ensures forall i | 0 <= i < |r| :: PostOf(all, u, r[i])
    ensures forall i | 0 <= i < |all| && all[i].authorId == u.id :: all[i].(avatarUrl := u.avatarUrl) in r
  {
    var mine := Filter(all, AuthoredBy(u.id));
    var r := WithAvatar(mine, u.avatarUrl);
    forall i | 0 <= i < |all| && all[i].authorId == u.id
      ensures all[i].(avatarUrl := u.avatarUrl) in r
    {
      assert AuthoredBy(u.id)(all[i]);
      var j :| 0 <= j < |mine| && mine[j] == all[i];
      assert r[j] == all[i].(avatarUrl := u.avatarUrl);
    }
    forall i | 0 <= i < |r|
      ensures PostOf(all, u, r[i])
    {
      assert mine[i] in all && AuthoredBy(u.id)(mine[i]);
      var j :| 0 <= j < |all| && all[j] == mine[i];
      assert all[j].authorId == u.id && r[i] == all[j].(avatarUrl := u.avatarUrl);
    }
    r
  }

  /** The list of one post: that post with `u`'s avatar when `u` wrote
      it, else nothing. */
  lemma OwnPostsSingle(p: Post, u: User)
    ensures OwnPosts([p], u) == if p.authorId == u.id then [p.(avatarUrl := u.avatarUrl)] else []
  {
    assert [p][1..] == [];
  }

  /** Splitting the fetched list splits the result the same way; with
      `OwnPostsSingle` this fixes the result completely: `u`'s posts of
      `all`, in their order, each as often as it occurs. */
  lemma OwnPostsConcat(a: seq<Post>, b: seq<Post>, u: User)
    ensures OwnPosts(a + b, u) == OwnPosts(a, u) + OwnPosts(b, u)
  {
    var keep := AuthoredBy(u.id);
    FilterConcat(a, b, keep);
    WithAvatarConcat(Filter(a, keep), Filter(b, keep), u.avatarUrl);
  }

  lemma WithAvatarConcat(xs: seq<Post>, ys: seq<Post>, avatar: Option<string>)
    ensures WithAvatar(xs + ys, avatar) == WithAvatar(xs, avatar) + WithAvatar(ys, avatar)
  {
    var l, r := WithAvatar(xs + ys, avatar), WithAvatar(xs, avatar) + WithAvatar(ys, avatar);
    forall i | 0 <= i < |l| ensures l[i] == r[i] {
      if i >= |xs| {
        assert (xs + ys)[i] == ys[i - |xs|];
      }
    }
  }

  /** A list written entirely by `u` is kept whole, in order, with `u`'s
      avatar on every post. */
  lemma OwnPostsOfAuthorOnly(all: seq<Post>, u: User)
    requires forall i | 0 <= i < |all| :: all[i].authorId == u.id
    ensures OwnPosts(all, u) == WithAvatar(all, u.avatarUrl)
  {
    FilterKeepsAll(all, AuthoredBy(u.id));
  }

  /** Replacing the avatar twice is replacing it once with the last one. */
  lemma WithAvatarLast(posts: seq<Post>, a: Option<string>, b: Option<string>)
    ensures WithAvatar(WithAvatar(posts, a), b) == WithAvatar(posts, b)
  {
    assert forall i | 0 <= i < |posts| :: WithAvatar(WithAvatar(posts, a), b)[i] == WithAvatar(posts, b)[i];
  }

  /** After a successful update of the same user, the page shows the same
      posts it would show had the updated user been the one loaded. */
  lemma UpdateMatchesReload(all: seq<Post>, u: User, v: User)
    requires v.id == u.id
    ensures WithAvatar(OwnPosts(all, u), v.avatarUrl) == OwnPosts(all, v)
  {
    WithAvatarLast(Filter(all, AuthoredBy(u.id)), u.avatarUrl, v.avatarUrl);
  }

  class ProfileView {
    /** None while the placeholder user (no id, empty fields) is shown. */
    var user: Option<User>
    var posts: seq<Post>
    var editing: bool
    var form: ProfileForm
    var message: string
    var loading: bool

    constructor ()
      ensures user == None && posts == [] && !editing && form == EmptyForm && message == "" && loading
    {
      user := None;
      posts := [];
      editing := false;
      form := EmptyForm;
      message := "";
      loading := true;
    }

    /** `fetchProfile` up to its first await (`GET /users/me`). */
    method FetchStart()
      modifies this
      ensures loading
      ensures user == old(user) && posts == old(posts) && editing == old(editing)
      ensures form == old(form) && message == old(message)
    {
      loading := true;
    }

    /** After `GET /users/me`. A body with a user shows it, prefills the
        form and goes on to `GET /posts` (`fetchPosts`). A
        body without a user or a failure sets the load error and ends
        loading. */
    method FetchUserResolve(o: Outcome<MeBody>) returns (fetchPosts: bool)
      modifies this
      ensures fetchPosts <==> o.Ok? && o.payload.user.Some?
      ensures fetchPosts ==>
        && user == o.payload.user && form == FormFor(o.payload.user.value)
        && loading == old(loading) && message == old(message)
      ensures !fetchPosts ==>
        && user == old(user) && form == old(form)
        && !loading && message == LoadFailed
      ensures posts == old(posts) && editing == old(editing)
    {
      if o.Ok? && o.payload.user.Some? {
        var u := o.payload.user.value;
        user := Some(u);
        form := FormFor(u);
        return true;
      }
      message := LoadFailed;
      loading := false;
      return false;
    }

    /** After `GET /posts`, in the closure holding `userData`: the user's
        own posts on success, the load error on failure; loading ends. */
    method FetchPostsResolve(userData: User, o: Outcome<seq<Post>>)
      modifies this
      ensures !loading
      ensures o.Ok? ==> posts == OwnPosts(o.payload, userData) && message == old(message)
      ensures o.Err? ==> posts == old(posts) && message == LoadFailed
      ensures user == old(user) && form == old(form) && editing == old(editing)
    {
      match o {
        case Ok(all) => posts := OwnPosts(all, userData);
        case Err(_) => message := LoadFailed;
      }
      loading := false;
    }

    /** `handleUpdate` after `PUT /users/me`. A body with a user replaces
        the shown user, reports success, leaves edit mode and puts the new
        avatar on every listed post; otherwise the update error is shown
        and nothing else changes. The form keeps what was typed. */
    method UpdateResolve(o: Outcome<MeBody>)
      modifies this
      ensures o.Ok? && o.payload.user.Some? ==>
        && user == o.payload.user && message == UpdateSucceeded && !editing
        && posts == WithAvatar(old(posts), o.payload.user.value.avatarUrl)
      ensures !(o.Ok? && o.payload.user.Some?) ==>
        && user == old(user) && message == UpdateFailed && editing == old(editing) && posts == old(posts)
      ensures form == old(form) && loading == old(loading)
    {
      if o.Ok? && o.payload.user.Some? {
        var u := o.payload.user.value;
        user := Some(u);
        message := UpdateSucceeded;
        editing := false;
        posts := WithAvatar(posts, u.avatarUrl);
      } else {
        message := UpdateFailed;
      }
    }

    /** The timer two seconds after a successful update. */
    method ClearMessage()
      modifies this
      ensures message == "" && user == old(user) && posts == old(posts)
      ensures editing == old(editing) && form == old(form) && loading == old(loading)
    {
      message := "";
    }

    /** Typing in the form. */
    method EditForm(f: ProfileForm)
      modifies this
      ensures form == f && user == old(user) && posts == old(posts)
      ensures editing == old(editing) && message == old(message) && loading == old(loading)
    {
      form := f;
    }

    /** The Edit Profile and Cancel buttons. */
    method SetEditing(b: bool)
      modifies this
      ensures editing == b && user == old(user) && posts == old(posts)
      ensures form == old(form) && message == old(message) && loading == old(loading)
    {
      editing := b;
    }
  }
}

=== FILE: protected_route.dfy ===
/** The route guard: a decision on the session's user alone. */
module ProtectedRoute {
  import opened Js
  import opened Domain
  import opened AuthContext

  /** What the guard renders: a replacing redirect, or its children. */
  datatype Element = Navigate(to: Route, replace: bool) | Children

  /** Children exactly when there is a user; otherwise a replacing redirect
      to `/login`. There is no third, loading, outcome. */
  function Guard(session: Session): (e: Element)
    ensures e == Children <==> session.user.Some?
    ensures e != Children ==> e == Navigate(LoginPath, true)
  {
    if session.user.None? then Navigate(LoginPath, true) else Children
  }

  /** The loading flag plays no part: sessions with the same user get the
      same element. */
  lemma GuardIgnoresLoading(a: Session, b: Session)
    requires a.user == b.user
    ensures Guard(a) == Guard(b)
  {
  }

  /** While the provider's initial fetch is pending (no user, loading) the
      guard redirects to `/login`. */
  lemma GuardRedirectsWhileLoading(s: Session)
    requires s.loading && s.user.None?
    ensures Guard(s) == Navigate(LoginPath, true)
  {
  }
}

=== FILE: scenarios.dfy ===
/** End-to-end runs of the modelled components on concrete inputs: the
    silent token refresh, the failed refresh, the like button, the two
    ways of signing in as seen by the route guard, a refused login, and two comment
    submissions that overlap. */
module Scenarios {
  import opened Js
  import opened Http
  import opened Domain
  import opened Api
  import opened AuthContext
  import opened ProtectedRoute
  import opened PostCard
  import opened LoginPage
  import opened PostDetail
  import opened PostPage

  const Alice := User(7, "alice", None, None, None)
  const Expired := HttpError(Some(Unauthorized), Some("Token expired"), "Request failed with status code 401")
  const RefreshRejected := HttpError(Some(403), Some("Invalid refresh token"), "Request failed with status code 403")

  /** An expired access token is refreshed without the user noticing: the
      `/users/me` call is sent, refreshed and re-sent with the new token,
      the user is signed in, and the refresh token is kept. */
  method ExpiredTokenIsRefreshed() returns (session: Session, storage: map<string, string>, wire: seq<Wire>)
    ensures session == Session(Some(Alice), false)
    ensures storage == map[AccessTokenKey := "fresh", RefreshTokenKey := "r1"]
    ensures wire == [ApiCall("/users/me", Some(Bearer("stale"))), RefreshCall(Some("r1")),
                     ApiCall("/users/me", Some(Bearer("fresh")))]
  {
    var browser := new Browser(map[AccessTokenKey := "stale", RefreshTokenKey := "r1"]);
    var provider := new AuthProvider(browser);
    var bearer := provider.FetchUserStart();
    assert bearer == Some("stale");
    var result;
    result, wire := Dispatch(browser, "/users/me", map[], Err(Expired), Ok("fresh"), Ok(MeBody(Some(Alice))));
    provider.FetchUserResolve(result);
    session := provider.Value();
    storage := browser.storage;
    assert storage == map[AccessTokenKey := "stale", RefreshTokenKey := "r1"][AccessTokenKey := "fresh"];
  }

  /** A rejected refresh signs the user out: both tokens are gone, the
      location is `/login`, no re-send happens, and the session has no
      user. */
  method RejectedRefreshSignsOut() returns (session: Session, storage: map<string, string>,
                                            location: Option<Route>, wire: seq<Wire>)
    ensures session == Session(None, false)
    ensures storage == map[] && location == Some(LoginPath)
    ensures |wire| == 2 && wire[1] == RefreshCall(Some("r1"))
  {
    var browser := new Browser(map[AccessTokenKey := "stale", RefreshTokenKey := "r1"]);
    var provider := new AuthProvider(browser);
    var _ := provider.FetchUserStart();
    var result;
    result, wire := Dispatch(browser, "/users/me", map[], Err(Expired), Err(RefreshRejected), Ok(MeBody(Some(Alice))));
    provider.FetchUserResolve(result);
    session := provider.Value();
    storage := browser.storage;
    location := browser.location;
    assert storage == map[AccessTokenKey := "stale", RefreshTokenKey := "r1"] - {AccessTokenKey, RefreshTokenKey};
  }

  /** Liking an unliked post with three likes: four at once, then the
      server's numbers. */
  method LikeSucceeds() returns (optimistic: LikeState, settled: LikeState)
    ensures optimistic == LikeState(true, 4)
    ensures settled == LikeState(true, 12)
  {
    var card := new Card(42, Some(3), Some(false));
    var captured := card.LikeStart(Some(Alice));
    optimistic := card.Like();
    card.LikeResolve(captured.value, Ok(LikeBody(true, 12)));
    settled := card.Like();
  }

  /** Liking an unliked post with three likes when the request fails, as
      written: the heart is back to unliked but the count reads five. */
  method LikeFailsAsWritten() returns (settled: LikeState)
    ensures settled == LikeState(false, 5)
  {
    var card := new Card(42, Some(3), Some(false));
    var captured := card.LikeStart(Some(Alice));
    card.LikeResolve(captured.value, Err(HttpError(None, None, "Network Error")));
    settled := card.Like();
  }

  /** Signing in through the login page on a fresh load: the tokens are
      stored, but the provider never learns the user, so the profile the
      page moves to is guarded by a redirect back to `/login`. */
  method LoginPageThenGuard() returns (target: Option<Route>, shown: Element)
    ensures target == Some(ProfilePath(Some(7)))
    ensures shown == Navigate(LoginPath, true)
  {
    var browser := new Browser(map[]);
    var provider := new AuthProvider(browser);
    var _ := provider.FetchUserStart();
    var form := new LoginForm(browser);
    form.SubmitStart();
    target := form.SubmitResolve(Ok(AuthBody("a1", "r1", Alice)));
    shown := Guard(provider.Value());
  }

  /** Signing in through the provider's own `login` on a fresh load: the
      session holds the user, so the guarded profile renders. */
  method ProviderLoginThenGuard() returns (result: AuthResult, shown: Element)
    ensures result == AuthResult(true, None)
    ensures shown == Children
  {
    var browser := new Browser(map[]);
    var provider := new AuthProvider(browser);
    var _ := provider.FetchUserStart();
    result := provider.Login(Ok(AuthBody("a1", "r1", Alice)));
    shown := Guard(provider.Value());
  }

  const First := Comment(1, "first", Some("alice"), None)
  const Second := Comment(2, "second", Some("alice"), None)

  /** Two comments submitted before the first answer arrives. The detail
      page appends each to the list its submit captured, so the second
      answer drops the first comment; the post page appends to the latest
      list and keeps both. */
  method OverlappingComments() returns (detail: seq<Comment>, page: seq<Comment>)
    ensures detail == [Second]
    ensures page == [First, Second]
  {
    assert !IsSpace("first"[0]) && !IsSpace("second"[0]);
    var d := new DetailThread();
    d.Type("first");
    var p1 := d.AddCommentStart();
    d.Type("second");
    var p2 := d.AddCommentStart();
    d.AddCommentResolve(p1.value, Ok(First));
    d.AddCommentResolve(p2.value, Ok(Second));
    detail := d.comments;

    var t := new PostThread();
    t.Type("first");
    var r1 := t.AddCommentStart(Some(Alice), None);
    t.Type("second");
    var r2 := t.AddCommentStart(Some(Alice), None);
    t.AddCommentResolve(Ok(First));
    t.AddCommentResolve(Ok(Second));
    page := t.comments;
  }

  const BadCredentials := HttpError(Some(Unauthorized), Some("Invalid credentials"), "Request failed with status code 401")

  /** A login that the server refuses with 401 (whether it does is up to
      the server) on a fresh load. The login goes through the instance, so
      the refusal is taken for an expired token: a refresh goes out with no
      refresh token, and when it is rejected the store is cleared and
      `/login` is assigned, a full page load that discards the error the
      page sets next. */
  method RefusedLoginReloads() returns (wire: seq<Wire>, location: Option<Route>, error: string)
    ensures wire == [ApiCall("/auth/login", None), RefreshCall(None)]
    ensures location == Some(LoginPath)
    ensures error == "Invalid credentials"
  {
    var browser := new Browser(map[]);
    var form := new LoginForm(browser);
    form.SubmitStart();
    var result;
    result, wire := Dispatch<AuthBody>(browser, "/auth/login", map[], Err(BadCredentials), Err(RefreshRejected), Err(BadCredentials));
    var _ := form.SubmitResolve(result);
    location := browser.location;
    error := form.error;
  }
}

=== FILE: signup.dfy ===
/** The signup page: the same flow as login, with its own messages and a
    move to the home feed. It does not touch the session provider either. */
module SignupPage {
  import opened Js
  import opened Http
  import opened Domain
  import opened Api

  const SignupSucceeded := "Signup successful! Redirecting to home..."
  const SignupFailed := "Signup failed. Try again."

  class SignupForm {
    const browser: Browser
    var error: string
    var success: string

    constructor (browser: Browser)
      ensures this.browser == browser && error == "" && success == ""
    {
      this.browser := browser;
      error := "";
      success := "";
    }

    /** `handleSubmit` up to its await: both messages cleared. */
    method SubmitStart()
      modifies this
      ensures error == "" && success == ""
    {
      error := "";
      success := "";
    }

    /** After `POST /auth/signup`. On success both tokens are stored, the
        success message shows and a move to `/` is scheduled (1.5 s later).
        On failure the server's error, else the fixed text, shows, and
        nothing is stored or scheduled. */
    method SubmitResolve(o: Outcome<AuthBody>) returns (navigateTo: Option<Route>)
      modifies this, browser
      ensures browser.location == old(browser.location)
      ensures o.Ok? ==>
        && browser.storage == old(browser.storage)[AccessTokenKey := o.payload.accessToken][RefreshTokenKey := o.payload.refreshToken]
        && success == SignupSucceeded && error == old(error)
        && navigateTo == Some(RootPath)
      ensures o.Err? ==>
        && browser.storage == old(browser.storage)
        && error == ServerErrorOr(o.error, SignupFailed) && error != "" && success == old(success)
        && navigateTo == None
    {
      match o
      case Ok(body) =>
        browser.StoreTokens(body.accessToken, body.refreshToken);
        success := SignupSucceeded;
        navigateTo := Some(RootPath);
      case Err(e) =>
        error := ServerErrorOr(e, SignupFailed);
        navigateTo := None;
    }
  }
}
